=== FILE: README.md ===
# PlutSites core, modelled in Dafny

PlutSites is a browser editor for small websites. It keeps three code buffers
(HTML, CSS, JavaScript) and shows them in a live preview. A visual builder can
generate the HTML and CSS from a list of text, link and image elements. A
publish button stores the buffers under a random eight-character domain, and
a serverless function renders the stored site as one page. A second serverless
function keeps a per-user table of saved projects.

This project models four pieces of that system as immutable data and pure
functions, and proves what each promises:

- `builder.dfy` (module `Builder`) models the visual builder. It covers the
  element list, add, update, delete, the edit-focus toggle, and the code
  generator.
- `session.dfy` (module `Session`) models the editor page. It covers the
  initial buffers, the preview compositor, the publish state machine, the
  publish-button guard, and the builder writing into the buffers.
- `projects.dfy` (module `Projects`) models the project store handler. Each
  invocation is a function `(store, event, now) -> (store', outcome)` over a
  map from id to row.
- `publish.dfy` (module `Publish`) models the publish handler. Each
  invocation is a function `(sites, event, domain) -> (sites', outcome)`,
  where `domain` is the random draw.

Shared pieces:

- `common.dfy` (module `Common`) has `Option` and the three-way `Maybe`. A
  `Maybe` key is missing, `null`, or set, so `d.get(k, default)` and
  `d.get(k)` can be told apart.
- `strings.dfy` (module `Strings`) has substring search, cutting and decimal
  numerals.
- `page.dfy` (module `Page`) has the style/body/script page template.
  Both the preview and the published-site renderer fill it. `Page.Parse` is
  the template's own inverse: it splits a filled page along the fixed text.
  The round-trip lemmas say for which parts the page determines what went
  in, that is, where `Fill` is injective. They are not a statement about how
  a browser parses the page.
- `http.dfy` (module `Http`) has the event, the response, and the escaped
  exceptions shared by both handlers.

A Python exception that escapes a handler is an `Outcome.Raised` value. The
store is then left as it was, because nothing was committed.

## Model

| member | source | states |
|---|---|---|
| Builder.NewElement | src/components/VisualBuilder.tsx:26-32 | a new text element holds "Новый текст" and no url; a link holds "Ссылка" with url "https://example.com"; an image holds the placeholder image address and no url |
| Builder.Add | src/components/VisualBuilder.tsx:26-35 | the list grows by exactly one element at the end, every earlier element is unchanged, and the new element's editor is the open one |
| Builder.AddKeepsIdsUnique | src/components/VisualBuilder.tsx:26-35 | when the new id is fresh, element ids stay pairwise distinct |
| Builder.ApplyPatch | src/components/VisualBuilder.tsx:37-39 | in `{ ...el, ...updates }` each field present in the patch takes the patch's value and each absent field keeps its old value |
| Builder.UpdateAll | src/components/VisualBuilder.tsx:37-39 | the length and order are preserved; an element whose id matches is patched, and every other element is unchanged |
| Builder.Update | src/components/VisualBuilder.tsx:37-39 | the element list is patched by id and the open editor does not change |
| Builder.UpdateAbsentIsIdentity | src/components/VisualBuilder.tsx:37-39 | updating an id that no element carries leaves the list unchanged |
| Builder.UpdateIdempotent | src/components/VisualBuilder.tsx:37-39 | applying the same patch twice equals applying it once, whether or not the patch renames the element |
| Builder.Remove | src/components/VisualBuilder.tsx:41-42 | the result is no longer than the input and holds no element with the deleted id |
| Builder.RemoveMembers | src/components/VisualBuilder.tsx:41-42 | an element survives deletion exactly when it was in the list and has another id |
| Builder.RemoveConcat | src/components/VisualBuilder.tsx:41-42 | deletion distributes over concatenation, so the survivors keep their relative order |
| Builder.RemoveAbsent | src/components/VisualBuilder.tsx:41-42 | deleting an id that no element carries changes nothing |
| Builder.RemoveAtPosition | src/components/VisualBuilder.tsx:41-42 | with unique ids, deleting the id at position i cuts out exactly that position |
| Builder.RemoveIdempotent | src/components/VisualBuilder.tsx:41-42 | deleting the same id twice equals deleting it once |
| Builder.Delete | src/components/VisualBuilder.tsx:41-47 | the list is filtered by id and the open editor is left as it was, even when it belonged to the deleted element |
| Builder.ToggleEdit | src/components/VisualBuilder.tsx:207 | the elements are unchanged; the editor becomes this element's exactly when it was not already, and closes exactly when it was |
| Builder.ToggleTwice | src/components/VisualBuilder.tsx:207 | pressing the same pencil twice restores the focus when it was closed or on that element, and closes it when it was on another element |
| Builder.JoinLinesSnoc | src/components/VisualBuilder.tsx:60-68 | joining one more line appends a newline and that line (no separator before a sole line) |
| Builder.JoinLinesConcat | src/components/VisualBuilder.tsx:60-68 | joining two non-empty runs of lines puts exactly one newline between them |
| Builder.LinesConcat | src/components/VisualBuilder.tsx:60-68 | the per-element lines of a concatenated list are the lines of each part, in order |
| Builder.GenerateAfterAdd | src/components/VisualBuilder.tsx:26-71 | after an add, the generated page is the old page with the new element's line inserted after all earlier lines, and the stylesheet is unchanged |
| Builder.GenerateAfterDelete | src/components/VisualBuilder.tsx:41-71 | with unique ids, the page generated after deleting element i is the page of the list with position i cut out, so its line is gone and every other line stays in order |
| Builder.DefaultLinkPage | src/components/VisualBuilder.tsx:26-64 | a link added to an empty builder renders as an anchor with the placeholder address and label |
| Builder.TextEditPage | src/components/VisualBuilder.tsx:37-130 | adding a text element, setting its content to "Hi" and generating gives that paragraph between the fixed head and tail, plus the fixed stylesheet |
| Session.InitialPublish | src/pages/Index.tsx:12-17 | the page opens idle with no link and no notices, and the first press posts exactly the three non-empty default buffers |
| Session.PreviewShowsBuffers | src/pages/Index.tsx:19-32 | splitting the preview along its template yields exactly the CSS, HTML and JavaScript buffers if and only if the CSS has no `</style>` and the JavaScript has no `<script>` |
| Session.Edit | src/pages/Index.tsx:136-143 | typing into one editor replaces that buffer only; the publish state and notices are untouched |
| Session.PressPublish | src/pages/Index.tsx:34-91 | a press sends nothing exactly while a publish is in flight; otherwise it raises the in-flight flag and posts exactly the three buffers |
| Session.DoublePressSendsOnce | src/pages/Index.tsx:35-91 | a second press during an in-flight publish sends nothing and changes nothing |
| Session.FinishPublish | src/pages/Index.tsx:49-66 | the in-flight flag always drops and the buffers never change; on success the link becomes the endpoint plus `?domain=` plus the domain, and exactly one notice is added; `success:false` changes nothing else; a throw adds exactly one failure notice and keeps the link |
| Session.ReadPublishResponse | src/pages/Index.tsx:49-51 | a reply counts as a success exactly when it is the publish JSON with `success` true, and then carries its domain; the empty preflight body and an HTML page make the JSON parse throw |
| Session.ApplyBuilder | src/components/VisualBuilder.tsx:129-136 | generating code sets the HTML and CSS buffers to the generated documents and adds one notice; the JavaScript buffer, the publish flag and the link are untouched |
| Session.PublishRoundTrip | src/pages/Index.tsx:34-56 | on an idle page whose buffers are embeddable and free of NUL characters, with a fresh domain, publishing leaves the page idle with the link for that domain and one new notice, and opening the link serves a page that splits along the template into exactly the published buffers |
| Projects.UserId | backend/projects/index.py:28-29 | the caller is the `X-User-Id` header when it is non-empty, else the `x-user-id` header when that key is present (even if empty), else "anonymous" |
| Projects.KeyOf | backend/projects/index.py:38-42 | a numeric id is used as itself; a text id is used as the number it spells, and is unreadable exactly when it is not a decimal numeral |
| Projects.GetOne | backend/projects/index.py:38-69 | GET `?id=` escapes with an error exactly when the id text is not a numeral; it returns the project when the caller owns that id, and 404 otherwise |
| Projects.OwnedSummaries | backend/projects/index.py:71-84 | the reference listing holds summaries of exactly the caller's rows, each once, in ascending id order |
| Projects.InsertByRecency | backend/projects/index.py:71-74 | inserting into a list ordered by recency keeps it ordered and adds exactly that one summary |
| Projects.SortByRecency | backend/projects/index.py:71-74 | the result is ordered by `updated_at` descending and is a permutation of its input |
| Projects.ListFor | backend/projects/index.py:70-90 | GET without an id lists a permutation of the reference listing, most recently updated first, holding every project of the caller and only the caller's |
| Projects.HandleGet | backend/projects/index.py:31-90 | GET with a missing or empty `id` (a `null` query counts as empty) answers 200 with exactly the caller's projects, each once, most recently updated first; a non-empty `id` escapes when it is not a numeral, and otherwise answers 404 exactly when the caller does not own that id; it escapes exactly when the user id, or the id text, holds a NUL character |
| Projects.GetWithoutIdLists | backend/projects/index.py:31-90 | through the handler, a GET with no query, a `null` query, or no or an empty `id` lists the projects of a caller whose user id has no NUL character, and leaves the store unchanged |
| Projects.NewRow | backend/projects/index.py:93-105 | a POSTed row belongs to the caller with both timestamps set to now; a missing name is "Новый проект" and a missing code or favicon is empty; a `null` value is stored as NULL |
| Projects.HandlePost | backend/projects/index.py:92-115 | a `null` body escapes; a text field or user id holding a NUL character escapes with nothing added; otherwise exactly one row is added under the next serial id, every other row is unchanged, and that id is returned |
| Projects.Overwrite | backend/projects/index.py:118-137 | PUT overwrites all five fields, and a field missing or `null` in the body becomes NULL; the owner and creation time stay and the update time becomes now |
| Projects.HandlePut | backend/projects/index.py:117-147 | a `null` body escapes; a missing or falsy id answers 400 with no change; after that, a text field, text id or user id holding a NUL character escapes with no change; an unreadable id escapes; the caller's row is overwritten; another user's row or a missing row is left alone, and the answer is still success |
| Projects.HandleDelete | backend/projects/index.py:149-174 | a missing or empty id answers 400; after that, an id text or user id holding a NUL character escapes; an unreadable id escapes; otherwise only the caller's row with that id is removed, and the answer is success whether or not a row matched |
| Projects.Handle | backend/projects/index.py:13-180 | the store stays well formed; an escaped error changes nothing; no other user's row is changed or removed and every new or changed row is the caller's; OPTIONS is the empty 200 preflight; GET, OPTIONS and unknown methods leave the store unchanged; `null` headers escape; an unknown method answers 405; GET answers as `HandleGet` for the caller's headers and query |
| Projects.PostThenGet | backend/projects/index.py:38-115 | a project created by POST reads back through GET `?id=` by the same user with the posted name, code and favicon, or their defaults, when neither the text nor the user id holds a NUL character |
| Projects.PostThenForeignGet | backend/projects/index.py:38-115 | another user, whose user id has no NUL character, asking for a freshly created project gets 404 |
| Projects.PutThenGet | backend/projects/index.py:38-147 | after the owner's PUT with NUL-free text, GET shows exactly the body's five fields (NULL where left out), the original creation time and the new update time |
| Projects.DeleteThenGet | backend/projects/index.py:38-174 | after the owner's DELETE the row is gone and GET with that id answers 404, for a user id without a NUL character |
| Projects.NulTextRefused | backend/projects/index.py:92-147 | a POST, or a PUT naming one of the caller's projects, whose text or user id holds a NUL character escapes and leaves the table and its id sequence unchanged |
| Publish.SiteOf | backend/publish/index.py:30-34 | a published site keeps the posted html, css and js; a missing key becomes empty and a `null` one becomes NULL |
| Publish.HandlePost | backend/publish/index.py:29-62 | a `null` body escapes; code holding a NUL character escapes with nothing stored; a domain already taken makes the insert escape with nothing stored; otherwise exactly that domain is added, every other site is unchanged, and the reply is `success: true` with the domain and its URL |
| Publish.HandleGet | backend/publish/index.py:64-117 | a `null` query escapes; a missing or empty domain answers 400; a domain holding a NUL character escapes; an unknown domain answers 404; a known one answers 200 text/html with the stored site in the template |
| Publish.Handle | backend/publish/index.py:15-123 | an escaped error changes nothing; only POST changes the table, and then only by adding the drawn domain; OPTIONS is the empty 200 preflight; a method other than GET, POST and OPTIONS answers 405 |
| Publish.PublishedDomainShape | backend/publish/index.py:35-61 | a publish reply names the invocation's own draw with URL the site base plus that domain, the site is stored under it, and the domain has eight characters, each a lower-case letter or a digit |
| Publish.PublishThenVisit | backend/publish/index.py:29-117 | publishing with a fresh domain and then visiting `?domain=` serves a page that splits along the template into exactly the posted html, css and js, when none holds a NUL character, the css has no `</style>` and the js has no `<script>` |
| Publish.NulCodeRefused | backend/publish/index.py:29-92 | posting code that holds a NUL character escapes, stores nothing, and a later visit to the drawn domain answers 404 |
| Publish.CollidingDraw | backend/publish/index.py:35-45 | a draw equal to a stored domain is not handled: the insert escapes, as a key violation or, for code holding a NUL character, earlier, and the table is unchanged |
| Publish.NullKeyShowsNone | backend/publish/index.py:30-107 | a key posted as `null` renders as the text `None`, and a missing key renders as empty (for a css without a NUL character) |
| Page.Parse | src/pages/Index.tsx:19-32 | whatever the parser accepts is the template filled with embeddable parts |
| Page.ParseFill | src/pages/Index.tsx:19-32 | filling any template with embeddable parts and splitting the page along it gives exactly those parts |
| Page.FillParseIff | backend/publish/index.py:96-107 | a page splits into given parts if and only if it is the template filled with them and they are embeddable |
| Page.FillInjective | src/pages/Index.tsx:19-32 | two fillings of one template with embeddable parts are equal exactly when the parts are, so the page determines the code that went in |
| Strings.ParseNatToDecimal | backend/projects/index.py:38-42 | the decimal text of every id reads back as that id, which is how a numeric id travels in `?id=` |
| Http.Method | backend/projects/index.py:13 | a missing `httpMethod` reads as GET, a `null` one as no method, and otherwise the given method |

## Left out

- Browser rendering, dialogs, menus and toast delivery are not modelled. A
  toast is logged as one `Session.Notice`, so only the number and kind of
  notices are modelled.
- Network I/O, `fetch` and `await` are not modelled. The settled publish call
  is an input, `Session.PublishResult`. `Session.ReadPublishResponse` reads
  only the replies the publish function itself produces. The body the
  platform sends for an escaped Python exception is not modelled.
- `Date.now()` element ids are an input. Freshness is a precondition of
  `Builder.AddKeepsIdsUnique`, because the code does not guarantee it.
- `random.choices` is the `domain` input, constrained by
  `Publish.ValidDomain`.
- PostgreSQL, psycopg2 and `DATABASE_URL` are modelled as a map from id to
  row, a serial counter, and a `now` parameter for `CURRENT_TIMESTAMP`.
  Timestamp text formatting (`str(...)`) is left out. Of the ways a
  statement can fail, the model keeps only those its inputs decide: a text
  parameter holding a NUL character (`Fault.NulInText`), id text the
  database cannot read as an integer, and a repeated site domain. A lost
  connection or any other database-side failure is not modelled.
- CORS header values and `isBase64Encoded` are left out. A response keeps
  only its status, content type and body.
- Projects.GetOne: the database's integer input rules (sign, blanks, base
  prefixes, digit separators, range) are not modelled. The model accepts
  exactly the unsigned decimal numerals of any size, so `-1` escapes here
  instead of answering 404.
- Projects.KeyOf: the same simplification of the database's integer input.
- Projects.ListFor: rows with equal update times may be returned in any
  order. The model fixes one order and promises only the descending order and
  the exact set of rows.
- Projects.NewRow: the projects table schema is not part of this model. It
  is assumed that `created_at` and `updated_at` both default to
  `CURRENT_TIMESTAMP`, since the INSERT sets neither, and that the text
  columns accept NULL.
- Publish.HandlePost: the sites table schema is not part of this model. A
  repeated domain is taken to violate a unique key and escape.
- `src/components/CodeEditor.tsx` (file import and export) and
  `src/components/FaviconUploader.tsx` are browser I/O and are not part of
  this model. `Session.Edit` stands for the editors' setters.
- How a browser parses the preview or the published page is not modelled.
  A browser ends a script element at the first `</script` and matches end
  tags case-insensitively, so its split can differ from `Page.Parse`. For
  example, a script holding `</script>` is cut short by a browser, while
  `Page.Parse` keeps it whole. The round-trip lemmas prove only that the
  template determines its parts.
- The request body of both functions is taken as already decoded into a
  JSON object. Body text that is not JSON, or that decodes to `null`, an
  array or a scalar, makes `json.loads` or `.get` raise, and that case is not
  modelled. JSON value types other than those in `Projects.Body` and
  `Publish.Body` are not modelled either: a boolean or fractional `id`, or a
  non-string code field.
- The preview iframe's `sandbox` attribute is a browser security property
  and is not modelled.
- The builder's "element deleted" toast is not modelled, because the builder
  state has no notices.
- No lemma proves that the generated stylesheet and the initial buffers
  contain no `</style>` or `<script>`. Doing so means scanning a long literal
  character by character. The preview lemmas therefore take embeddability as
  a hypothesis.

## Behaviour worth noting

- The generator's template prints `href="undefined"` for a link element
  without a url (`Builder.Interpolate`). No builder action produces such an
  element: adding a link always sets a url, and the url field only ever
  receives a string. So this is a property of the template alone.
- A publish reply with `success` false raises no notification. Only a thrown
  fetch or JSON parse raises one (`Session.FinishPublish`).
- The publish request carries html, css and js only, with no favicon
  (`Session.PressPublish`).
- A PUT field that is missing or `null` is stored as NULL
  (`Projects.Overwrite`).
- A code field published as `null` renders as the text `None`
  (`Publish.NullKeyShowsNone`).
- Text holding a NUL character can never be stored or looked up. The driver
  refuses it as a parameter, so the handler escapes before the statement
  runs (`Projects.NulTextRefused`, `Publish.NulCodeRefused`).

=== FILE: builder.dfy ===
/** The visual site builder: an insertion-ordered list of content elements,
    the operations that edit it, and the generator that turns it into a page
    (one markup line per element) and a fixed stylesheet. */
module Builder {
  import opened Common

  datatype Kind = Text | Link | Image

  /** One content element. `url` is set only for links by `Add`, but a patch
      may set or clear it on any element. */
  datatype Element = Element(id: string, kind: Kind, content: string, url: Option<string>)

  /** A partial element, merged with object spread: every field present in the
      patch (`Some`) replaces the element's field; `url := Some(None)` clears it. */
  datatype Patch = Patch(id: Option<string>, kind: Option<Kind>, content: Option<string>, url: Option<Option<string>>)

  /** The builder's state: the elements in creation order and the element whose
      editor is open, if any. */
  datatype State = State(elements: seq<Element>, editingId: Option<string>)

  const Initial := State([], None)

  const DefaultText := "Новый текст"
  const DefaultLinkLabel := "Ссылка"
  const DefaultLinkUrl := "https://example.com"
  const DefaultImageUrl := "https://via.placeholder.com/400x300"

  ghost predicate UniqueIds(els: seq<Element>) {
    forall i, j | 0 <= i < j < |els| :: els[i].id != els[j].id
  }

  /** No element carries `id`. */
  ghost predicate Lacks(els: seq<Element>, id: string) {
    forall i | 0 <= i < |els| :: els[i].id != id
  }

  // ---------------------------------------------------------------------------
  // Editing the element list

  /** A new element of the given kind with that kind's placeholder content. */
  function NewElement(id: string, kind: Kind): (e: Element)
    ensures e.id == id && e.kind == kind
    ensures kind == Text ==> e.content == DefaultText && e.url == None
    ensures kind == Link ==> e.content == DefaultLinkLabel && e.url == Some(DefaultLinkUrl)
    ensures kind == Image ==> e.content == DefaultImageUrl && e.url == None
  {
    Element(id, kind,
            match kind
            case Text => DefaultText
            case Link => DefaultLinkLabel
            case Image => DefaultImageUrl,
            if kind == Link then Some(DefaultLinkUrl) else None)
  }

  /** Appends a new element (its id is the caller's clock reading) and opens its
      editor. */
  function Add(s: State, kind: Kind, newId: string): (r: State)
    ensures |r.elements| == |s.elements| + 1
    ensures r.elements[..|s.elements|] == s.elements
    ensures r.elements[|s.elements|] == NewElement(newId, kind)
    ensures r.editingId == Some(newId)
  {
    State(s.elements + [NewElement(newId, kind)], Some(newId))
  }

  /** Element ids stay unique when the new id is fresh. */
  lemma AddKeepsIdsUnique(s: State, kind: Kind, newId: string)
    requires UniqueIds(s.elements) && Lacks(s.elements, newId)
    ensures UniqueIds(Add(s, kind, newId).elements)
  {
    var els := Add(s, kind, newId).elements;
    forall i, j | 0 <= i < j < |els|
      ensures els[i].id != els[j].id
    {
      if j == |s.elements| {
        assert els[i] == s.elements[i];
      } else {
        assert els[i] == s.elements[i] && els[j] == s.elements[j];
      }
    }
  }

  /** `{ ...e, ...p }`: fields present in the patch win; the others are kept. */
  function ApplyPatch(e: Element, p: Patch): (r: Element)
    ensures p.id.None? ==> r.id == e.id
    ensures p.kind.None? ==> r.kind == e.kind
    ensures p.content.None? ==> r.content == e.content
    ensures p.url.None? ==> r.url == e.url
    ensures p.id.Some? ==> r.id == p.id.value
    ensures p.kind.Some? ==> r.kind == p.kind.value
    ensures p.content.Some? ==> r.content == p.content.value
    ensures p.url.Some? ==> r.url == p.url.value
  {
    Element(if p.id.Some? then p.id.value else e.id,
            if p.kind.Some? then p.kind.value else e.kind,
            if p.content.Some? then p.content.value else e.content,
            if p.url.Some? then p.url.value else e.url)
  }

  /** Patches every element whose id matches and keeps the others. */
  function UpdateAll(els: seq<Element>, id: string, p: Patch): (r: seq<Element>)
    ensures |r| == |els|
    ensures forall i | 0 <= i < |els| :: els[i].id == id ==> r[i] == ApplyPatch(els[i], p)
    ensures forall i | 0 <= i < |els| :: els[i].id != id ==> r[i] == els[i]
  {
    if els == [] then []
    else
      var head := if els[0].id == id then ApplyPatch(els[0], p) else els[0];
      [head] + UpdateAll(els[1..], id, p)
  }

  function Update(s: State, id: string, p: Patch): (r: State)
    ensures r.elements == UpdateAll(s.elements, id, p)
    ensures r.editingId == s.editingId
  {
    State(UpdateAll(s.elements, id, p), s.editingId)
  }

  /** Updating an id no element carries changes nothing. */
  lemma UpdateAbsentIsIdentity(els: seq<Element>, id: string, p: Patch)
    requires Lacks(els, id)
    ensures UpdateAll(els, id, p) == els
  {
  }

  /** Applying the same patch twice is the same as applying it once: a patched
      element either keeps the id, and patching it again changes nothing, or
      the patch renamed it, and the second pass no longer matches it. */
  lemma UpdateIdempotent(els: seq<Element>, id: string, p: Patch)
    ensures UpdateAll(UpdateAll(els, id, p), id, p) == UpdateAll(els, id, p)
  {
    var once := UpdateAll(els, id, p);
    var twice := UpdateAll(once, id, p);
    forall i | 0 <= i < |els|
      ensures twice[i] == once[i]
    {
      if els[i].id == id {
        assert once[i] == ApplyPatch(els[i], p);
        if once[i].id == id {
          assert twice[i] == ApplyPatch(once[i], p);
        }
      } else {
        assert once[i] == els[i];
      }
    }
  }

  /** Keeps the elements whose id differs from `id`, in their order. */
  function Remove(els: seq<Element>, id: string): (r: seq<Element>)
    ensures |r| <= |els|
    ensures Lacks(r, id)
  {
    if els == [] then []
    else if els[0].id == id then Remove(els[1..], id)
    else [els[0]] + Remove(els[1..], id)
  }

  /** Exactly the elements with another id survive removal. */
  lemma {:induction false} RemoveMembers(els: seq<Element>, id: string, e: Element)
    ensures e in Remove(els, id) <==> e in els && e.id != id
  {
    if els != [] {
      RemoveMembers(els[1..], id, e);
      assert els == [els[0]] + els[1..];
    }
  }

  /** Deleting leaves the open editor as it was, even when it belonged to the
      deleted element. */
  function Delete(s: State, id: string): (r: State)
    ensures r.elements == Remove(s.elements, id)
    ensures r.editingId == s.editingId
  {
    State(Remove(s.elements, id), s.editingId)
  }

  /** Removal distributes over concatenation: each part keeps its survivors in
      order, which pins the relative order of the whole result. */
  lemma {:induction false} RemoveConcat(a: seq<Element>, b: seq<Element>, id: string)
    ensures Remove(a + b, id) == Remove(a, id) + Remove(b, id)
  {
    if a == [] {
      assert a + b == b;
    } else {
      assert (a + b)[1..] == a[1..] + b;
      RemoveConcat(a[1..], b, id);
    }
  }

  /** An absent id removes nothing. */
  lemma {:induction false} RemoveAbsent(els: seq<Element>, id: string)
    requires Lacks(els, id)
    ensures Remove(els, id) == els
  {
    if els != [] {
      assert Lacks(els[1..], id) by {
        forall i | 0 <= i < |els[1..]| ensures els[1..][i].id != id {
          assert els[1..][i] == els[i + 1];
        }
      }
      RemoveAbsent(els[1..], id);
      assert els == [els[0]] + els[1..];
    }
  }

  /** With unique ids, deleting an element removes exactly its position. */
  lemma RemoveAtPosition(els: seq<Element>, i: nat)
    requires UniqueIds(els) && i < |els|
    ensures Remove(els, els[i].id) == els[..i] + els[i + 1..]
  {
    LacksOwnIdElsewhere(els, i);
    RemoveAtLoneId(els, i);
  }

  lemma RemoveAtLoneId(els: seq<Element>, i: nat)
    requires i < |els| && Lacks(els[..i], els[i].id) && Lacks(els[i + 1..], els[i].id)
    ensures Remove(els, els[i].id) == els[..i] + els[i + 1..]
  {
    var a, e, b := els[..i], els[i], els[i + 1..];
    RemoveLone(a, e, b);
    SplitAround(els, i);
  }

  lemma SplitAround<T>(xs: seq<T>, i: nat)
    requires i < |xs|
    ensures xs[..i] + [xs[i]] + xs[i + 1..] == xs
  {
  }

  /** Removing the id of the middle element of `a + [e] + b`, carried by
      neither side, leaves `a + b`. */
  lemma RemoveLone(a: seq<Element>, e: Element, b: seq<Element>)
    requires Lacks(a, e.id) && Lacks(b, e.id)
    ensures Remove(a + [e] + b, e.id) == a + b
  {
    RemoveAbsent(a, e.id);
    RemoveAbsent(b, e.id);
    RemoveSplice(a, e, b);
  }

  /** `RemoveLone` with each side's lack of the id given as "removal leaves
      that side unchanged". */
  lemma RemoveSplice(a: seq<Element>, e: Element, b: seq<Element>)
    requires Remove(a, e.id) == a && Remove(b, e.id) == b
    ensures Remove(a + [e] + b, e.id) == a + b
  {
    RemoveConcat(a + [e], b, e.id);
    RemoveConcat(a, [e], e.id);
    assert Remove([e], e.id) == [];
  }

  /** With unique ids, the id of position `i` occurs neither before nor after it. */
  lemma LacksOwnIdElsewhere(els: seq<Element>, i: nat)
    requires UniqueIds(els) && i < |els|
    ensures Lacks(els[..i], els[i].id) && Lacks(els[i + 1..], els[i].id)
  {
    var before, after := els[..i], els[i + 1..];
    forall t | 0 <= t < |before| ensures before[t].id != els[i].id {
      assert before[t] == els[t];
    }
    forall t | 0 <= t < |after| ensures after[t].id != els[i].id {
      assert after[t] == els[i + 1 + t];
    }
  }

  /** Deleting twice is deleting once. */
  lemma RemoveIdempotent(els: seq<Element>, id: string)
    ensures Remove(Remove(els, id), id) == Remove(els, id)
  {
    RemoveAbsent(Remove(els, id), id);
  }

  /** The pencil button of element `id`: closes its editor when open, opens it
      (closing any other) otherwise. */
  function ToggleEdit(s: State, id: string): (r: State)
    ensures r.elements == s.elements
    ensures r.editingId == Some(id) <==> s.editingId != Some(id)
    ensures r.editingId == None <==> s.editingId == Some(id)
  {
    State(s.elements, if s.editingId == Some(id) then None else Some(id))
  }

  /** Two presses of the same button restore the focus when the editor was
      closed or was that element's; from another element's editor they close it. */
  lemma ToggleTwice(s: State, id: string)
    ensures s.editingId == None || s.editingId == Some(id) ==> ToggleEdit(ToggleEdit(s, id), id) == s
    ensures s.editingId.Some? && s.editingId != Some(id) ==> ToggleEdit(ToggleEdit(s, id), id).editingId == None
  {
  }

  // ---------------------------------------------------------------------------
  // Code generation

  const HtmlHead := "<!DOCTYPE html>\n<html lang=\"ru\">\n<head>\n    <meta charset=\"UTF-8\">\n    <meta name=\"viewport\" content=\"width=device-width, initial-scale=1.0\">\n    <title>Мой сайт</title>\n    <link rel=\"stylesheet\" href=\"styles.css\">\n</head>\n<body>\n    <div class=\"container\">\n"
  const HtmlTail := "\n    </div>\n</body>\n</html>"
  const LineIndent := "        "

  /** The stylesheet the generator always emits, whatever the elements are. */
  const GeneratedCss := "* {\n    margin: 0;\n    padding: 0;\n    box-sizing: border-box;\n}\n\nbody {\n    font-family: 'Arial', sans-serif;\n    background: linear-gradient(135deg, #667eea 0%, #764ba2 100%);\n    min-height: 100vh;\n    padding: 20px;\n}\n\n.container {\n    max-width: 800px;\n    margin: 0 auto;\n    background: white;\n    padding: 40px;\n    border-radius: 16px;\n    box-shadow: 0 20px 60px rgba(0,0,0,0.3);\n}\n\n.text-element {\n    margin: 20px 0;\n    font-size: 18px;\n    line-height: 1.6;\n    color: #333;\n}\n\n.link-element {\n    display: inline-block;\n    margin: 15px 0;\n    padding: 12px 24px;\n    background: #a855f7;\n    color: white;\n    text-decoration: none;\n    border-radius: 8px;\n    font-weight: 600;\n    transition: all 0.3s;\n}\n\n.link-element:hover {\n    background: #9333ea;\n    transform: translateY(-2px);\n    box-shadow: 0 4px 12px rgba(168, 85, 247, 0.4);\n}\n\n.image-element {\n    width: 100%;\n    max-width: 600px;\n    height: auto;\n    margin: 20px 0;\n    border-radius: 12px;\n    box-shadow: 0 8px 24px rgba(0,0,0,0.15);\n}"

  /** A JavaScript template hole: a missing value prints as `undefined`. */
  function Interpolate(v: Option<string>): string {
    match v
    case Some(x) => x
    case None => "undefined"
  }

  /** The markup line of one element; content and url go in verbatim. */
  function Line(e: Element): string {
    match e.kind
    case Text => LineIndent + "<p class=\"text-element\">" + e.content + "</p>"
    case Link => LineIndent + "<a href=\"" + Interpolate(e.url) + "\" class=\"link-element\" target=\"_blank\">" + e.content + "</a>"
    case Image => LineIndent + "<img src=\"" + e.content + "\" class=\"image-element\" alt=\"Изображение\">"
  }

  function Lines(els: seq<Element>): (r: seq<string>)
    ensures |r| == |els|
  {
    seq(|els|, i requires 0 <= i < |els| => Line(els[i]))
  }

  /** JavaScript's `join('\n')`. */
  function JoinLines(ls: seq<string>): string {
    if ls == [] then ""
    else if |ls| == 1 then ls[0]
    else ls[0] + "\n" + JoinLines(ls[1..])
  }

  datatype Generated = Generated(html: string, css: string)

  /** The page: fixed head, the element lines in list order, fixed tail. */
  function GenerateHtml(els: seq<Element>): string {
    HtmlHead + JoinLines(Lines(els)) + HtmlTail
  }

  /** What "apply code" hands to the editor: the page and the fixed stylesheet. */
  function Generate(els: seq<Element>): Generated {
    Generated(GenerateHtml(els), GeneratedCss)
  }

  /** Joining one more line appends a newline and that line. */
  lemma {:induction false} JoinLinesSnoc(ls: seq<string>, x: string)
    ensures JoinLines(ls + [x]) == if ls == [] then x else JoinLines(ls) + "\n" + x
  {
    if |ls| == 1 {
      assert ls + [x] == [ls[0], x];
    } else if |ls| > 1 {
      assert (ls + [x])[1..] == ls[1..] + [x];
      JoinLinesSnoc(ls[1..], x);
    }
  }

  lemma {:induction false} JoinLinesConcat(a: seq<string>, b: seq<string>)
    requires a != [] && b != []
    ensures JoinLines(a + b) == JoinLines(a) + "\n" + JoinLines(b)
  {
    if |a| == 1 {
      assert (a + b)[1..] == b;
    } else {
      assert (a + b)[1..] == a[1..] + b;
      JoinLinesConcat(a[1..], b);
    }
  }

  lemma LinesConcat(a: seq<Element>, b: seq<Element>)
    ensures Lines(a + b) == Lines(a) + Lines(b)
  {
  }

  /** After `Add`, the generated page gains exactly one line, the new
      element's, after all the earlier lines; the stylesheet does not change. */
  lemma GenerateAfterAdd(s: State, kind: Kind, newId: string)
    ensures GenerateHtml(Add(s, kind, newId).elements)
         == HtmlHead
          + (if s.elements == [] then "" else JoinLines(Lines(s.elements)) + "\n")
          + Line(NewElement(newId, kind))
          + HtmlTail
    ensures Generate(Add(s, kind, newId).elements).css == Generate(s.elements).css
  {
    GenerateSnoc(s.elements, NewElement(newId, kind));
  }

  lemma GenerateSnoc(els: seq<Element>, e: Element)
    ensures GenerateHtml(els + [e])
         == HtmlHead + (if els == [] then "" else JoinLines(Lines(els)) + "\n") + Line(e) + HtmlTail
  {
    BodySnoc(els, e);
    var x := if els == [] then "" else JoinLines(Lines(els)) + "\n";
    Regroup(HtmlHead, x, Line(e), HtmlTail);
  }

  lemma Regroup(h: string, x: string, y: string, t: string)
    ensures h + (x + y) + t == h + x + y + t
  {
  }

  lemma BodySnoc(els: seq<Element>, e: Element)
    ensures JoinLines(Lines(els + [e])) == (if els == [] then "" else JoinLines(Lines(els)) + "\n") + Line(e)
  {
    LinesConcat(els, [e]);
    assert Lines([e]) == [Line(e)];
    JoinLinesSnoc(Lines(els), Line(e));
    if els == [] {
      assert Lines(els) == [];
      assert "" + Line(e) == Line(e);
    } else {
      assert Lines(els) != [];
    }
  }

  /** With unique ids, deleting element `i` and generating gives the page of
      the list with that one position cut out: its line disappears and every
      other line stays, in order. */
  lemma GenerateAfterDelete(s: State, i: nat)
    requires UniqueIds(s.elements) && i < |s.elements|
    ensures Generate(Delete(s, s.elements[i].id).elements)
         == Generate(s.elements[..i] + s.elements[i + 1..])
  {
    RemoveAtPosition(s.elements, i);
  }

  /** A link added to an empty builder renders with the placeholder address
      and label. */
  lemma DefaultLinkPage(newId: string)
    ensures GenerateHtml(Add(Initial, Link, newId).elements)
         == HtmlHead + LineIndent + "<a href=\"" + DefaultLinkUrl + "\" class=\"link-element\" target=\"_blank\">" + DefaultLinkLabel + "</a>" + HtmlTail
  {
    assert Add(Initial, Link, newId).elements == [NewElement(newId, Link)];
  }

  /** Adding a text element, setting its content to "Hi" and generating yields
      that paragraph and the unchanged stylesheet. */
  lemma TextEditPage(newId: string)
    ensures var s := Update(Add(Initial, Text, newId), newId, Patch(None, None, Some("Hi"), None));
            Generate(s.elements) == Generated(HtmlHead + LineIndent + "<p class=\"text-element\">" + "Hi" + "</p>" + HtmlTail, GeneratedCss)
  {
    var s := Update(Add(Initial, Text, newId), newId, Patch(None, None, Some("Hi"), None));
    assert Add(Initial, Text, newId).elements == [NewElement(newId, Text)];
    assert s.elements == [Element(newId, Text, "Hi", None)];
    assert Lines(s.elements) == [Line(s.elements[0])];
  }
}

=== FILE: common.dfy ===
/** Small value types shared by every part of the model. */
module Common {

  /** A value that may be missing (JavaScript `undefined`, SQL NULL, Python `None`). */
  datatype Option<+T> = None | Some(value: T) {
    predicate IsFailure() {
      None?
    }

    function PropagateFailure<U>(): Option<U>
      requires None?
    {
      None
    }

    function Extract(): T
      requires Some?
    {
      value
    }
  }

  /** A key read from a decoded JSON object or an event dictionary: the key is
      missing, present with `null`, or present with a value. Python's
      `d.get(key, default)` tells the first two apart, so the model does too. */
  datatype Maybe<+T> = Absent | Null | Present(value: T)

  /** Python's `d.get(key, default)`: the default only when the key is missing;
      a key present with `null` reads as `None`. */
  function GetOr<T>(m: Maybe<T>, default: T): (r: Option<T>)
    ensures m.Absent? ==> r == Some(default)
    ensures m.Null? ==> r.None?
    ensures m.Present? ==> r == Some(m.value)
  {
    match m
    case Absent => Some(default)
    case Null => None
    case Present(v) => Some(v)
  }

  /** Python's `d.get(key)`: missing and `null` both read as `None`. */
  function Get<T>(m: Maybe<T>): (r: Option<T>)
    ensures r.Some? <==> m.Present?
    ensures r.Some? ==> r.value == m.value
  {
    match m
    case Present(v) => Some(v)
    case _ => None
  }

  /** Python's `d.get(key)` on a dictionary of strings. */
  function Lookup(d: map<string, string>, key: string): (r: Option<string>)
    ensures r.Some? <==> key in d
    ensures r.Some? ==> r.value == d[key]
  {
    if key in d then Some(d[key]) else None
  }
}

=== FILE: http.dfy ===
/** The serverless function interface both backends share: a decoded event in,
    a status/content-type/body triple out. CORS header values are not modelled. */
module Http {
  import opened Common

  /** The decoded invocation event. Each key may be missing, `null`, or set. */
  datatype Event<B> = Event(
    httpMethod: Maybe<string>,
    headers: Maybe<map<string, string>>,
    query: Maybe<map<string, string>>,
    body: Maybe<B>)

  datatype ContentType = NoContentType | Json | Html

  datatype Response<B> = Response(status: int, contentType: ContentType, body: B)

  /** The Python exceptions a handler lets escape that its inputs decide; a
      lost database connection and other database-side failures are not
      modelled. */
  datatype Fault =
    | NullHeaders      // `.get` on a `null` headers value
    | NullQuery        // `.get` on a `null` query-parameter value
    | NullBody         // `json.loads(None)`
    | BadIdText        // the database cannot read the id text as an integer
    | DuplicateDomain  // the insert collides with an existing site domain
    | NulInText        // a text parameter holds U+0000, which the driver refuses

  /** What a handler invocation ends in: a response, or an escaped exception
      (the platform then reports an error and nothing was committed). */
  datatype Outcome<B> = Reply(response: Response<B>) | Raised(fault: Fault)

  /** `event.get('httpMethod', 'GET')`: a missing method reads as GET, a `null`
      one as no method at all. */
  function Method<B>(ev: Event<B>): (m: Option<string>)
    ensures ev.httpMethod.Absent? ==> m == Some("GET")
    ensures ev.httpMethod.Null? ==> m == None
    ensures ev.httpMethod.Present? ==> m == Some(ev.httpMethod.value)
  {
    GetOr(ev.httpMethod, "GET")
  }

  /** The error text both functions answer an unknown method with (status 405). */
  const NotAllowedMessage := "Method not allowed"

  /** The response to a preflight request: status 200, empty body. */
  function Preflight<B>(empty: B): Outcome<B> {
    Reply(Response(200, NoContentType, empty))
  }
}

=== FILE: page.dfy ===
/** The page template shared by the live preview and the published-site
    renderer: fixed text around a `<style>` region holding the CSS, the HTML
    in the body, and a `<script>` region after it holding the JavaScript.
    Nothing is escaped. `Parse` is the template's own inverse, not a browser:
    the round-trip lemmas say for which parts the filled page determines the
    three parts that went in (`Fill` is injective on embeddable parts). How a
    browser's HTML parser splits the page is a different question. */
module Page {
  import opened Common
  import opened Strings

  const StyleOpen := "<style>"
  const StyleClose := "</style>"
  const ScriptOpen := "<script>"
  const ScriptClose := "</script>"

  /** The fixed text of one template: before `<style>`, between `</style>` and
      the HTML, between the HTML and `<script>`, and after `</script>`. */
  datatype Skeleton = Skeleton(head: string, headToBody: string, bodyToScript: string, tail: string)

  /** The three artifacts a page embeds. */
  datatype Parts = Parts(css: string, html: string, js: string)

  /** The CSS holds no `</style>` and the JavaScript no `<script>`, so the
      template's split of a filled page is unambiguous. */
  ghost predicate Embeddable(p: Parts) {
    Free(p.css, StyleClose) && Free(p.js, ScriptOpen)
  }

  /** The template with each artifact inserted verbatim. */
  function Fill(k: Skeleton, p: Parts): string {
    k.head + StyleOpen + p.css + StyleClose + k.headToBody + p.html + k.bodyToScript + ScriptOpen + p.js + ScriptClose + k.tail
  }

  lemma TagsHeadUnique()
    ensures HeadUnique(StyleClose) && HeadUnique(ScriptOpen)
  {
  }

  /** Splits a page along the template: the CSS runs from the opening style
      tag to the first `</style>`, the JavaScript from the last `<script>` to
      the template's closing script tag, and the HTML is what lies between the
      fixed pieces. */
  function Parse(k: Skeleton, doc: string): (r: Option<Parts>)
    ensures r.Some? ==> Embeddable(r.value) && Fill(k, r.value) == doc
  {
    var rest :- CutPrefix(k.head + StyleOpen, doc);
    var (css, fromClose) :- SplitAtFirst(rest, StyleClose);
    var afterHead :- CutPrefix(StyleClose + k.headToBody, fromClose);
    var body :- CutSuffix(ScriptClose + k.tail, afterHead);
    var (front, js) :- SplitAtLast(body, ScriptOpen);
    var html :- CutSuffix(k.bodyToScript, front);
    var p := Parts(css, html, js);
    FillAssembly(k, p, doc, rest, fromClose, afterHead, body, front);
    Some(p)
  }

  /** The six cuts `Parse` makes put the page back together as `Fill`. */
  lemma FillAssembly(k: Skeleton, p: Parts, doc: string, rest: string, fromClose: string, afterHead: string, body: string, front: string)
    requires doc == k.head + StyleOpen + rest
    requires rest == p.css + fromClose
    requires fromClose == StyleClose + k.headToBody + afterHead
    requires afterHead == body + (ScriptClose + k.tail)
    requires body == front + ScriptOpen + p.js
    requires front == p.html + k.bodyToScript
    ensures Fill(k, p) == doc
  {
  }

  /** Filling the template and splitting it along the template recovers exactly the artifacts
      that went in, for every skeleton, whenever they are embeddable. */
  lemma ParseFill(k: Skeleton, p: Parts)
    requires Embeddable(p)
    ensures Parse(k, Fill(k, p)) == Some(p)
  {
    TagsHeadUnique();
    var doc := Fill(k, p);
    var afterHead := p.html + k.bodyToScript + ScriptOpen + p.js + (ScriptClose + k.tail);
    var fromClose := StyleClose + k.headToBody + afterHead;
    var rest := p.css + fromClose;
    assert doc == k.head + StyleOpen + rest;
    assert CutPrefix(k.head + StyleOpen, doc) == Some(rest);
    SplitAtFirstJoin(p.css, fromClose, StyleClose);
    assert CutPrefix(StyleClose + k.headToBody, fromClose) == Some(afterHead);
    var front := p.html + k.bodyToScript;
    var body := front + ScriptOpen + p.js;
    assert afterHead == body + (ScriptClose + k.tail);
    assert CutSuffix(ScriptClose + k.tail, afterHead) == Some(body);
    SplitAtLastJoin(front, p.js, ScriptOpen);
    assert CutSuffix(k.bodyToScript, front) == Some(p.html);
  }

  /** The converse direction: whatever `Parse` accepts is a filled template with
      embeddable parts, so a page splits into `p` exactly when it is
      `Fill(k, p)` for an embeddable `p`. */
  lemma FillParseIff(k: Skeleton, doc: string, p: Parts)
    ensures Parse(k, doc) == Some(p) <==> Embeddable(p) && doc == Fill(k, p)
  {
    if Embeddable(p) && doc == Fill(k, p) {
      ParseFill(k, p);
    }
  }

  /** Two fillings of the same template with embeddable parts are equal only
      when the parts are: the page determines what went into it. */
  lemma FillInjective(k: Skeleton, p: Parts, q: Parts)
    requires Embeddable(p) && Embeddable(q)
    ensures Fill(k, p) == Fill(k, q) <==> p == q
  {
    if Fill(k, p) == Fill(k, q) {
      ParseFill(k, p);
      ParseFill(k, q);
    }
  }
}

=== FILE: projects.dfy ===
/** The project store function: one resource, dispatched on the HTTP method,
    over a `projects` table whose rows are scoped by the caller's user id.
    The table is a map from the serial id to the row; timestamps are readings
    of an abstract clock passed in as `now`. */
module Projects {
  import opened Common
  import opened Strings
  import opened Http

  const DefaultName := "Новый проект"
  const NotFoundMessage := "Project not found"
  const IdRequiredMessage := "Project ID required"
  const Anonymous := "anonymous"

  /** A JSON `id` value as a client sends it: a number or a string. */
  datatype IdValue = IdNum(n: int) | IdText(text: string)

  /** The decoded JSON request body; keys other than these are ignored. */
  datatype Body = Body(
    id: Maybe<IdValue>,
    name: Maybe<string>,
    html: Maybe<string>,
    css: Maybe<string>,
    js: Maybe<string>,
    favicon: Maybe<string>)

  /** The body of an event without one: `json.loads('{}')`. */
  const EmptyBody := Body(Absent, Absent, Absent, Absent, Absent, Absent)

  /** One table row; every text column may be NULL. */
  datatype Row = Row(
    owner: string,
    name: Option<string>,
    html: Option<string>,
    css: Option<string>,
    js: Option<string>,
    favicon: Option<string>,
    createdAt: nat,
    updatedAt: nat)

  /** The table and its id sequence: the next serial value to hand out. */
  datatype Store = Store(rows: map<nat, Row>, nextId: nat)

  /** Every stored id was handed out by the sequence, which starts at 1. */
  ghost predicate Valid(s: Store) {
    s.nextId >= 1 && forall k | k in s.rows :: 0 < k < s.nextId
  }

  /** A fresh table: no rows, and the sequence at its start value. */
  const EmptyStore := Store(map[], 1)

  /** The full project returned by GET with an id. */
  datatype Project = Project(
    id: nat,
    name: Option<string>,
    html: Option<string>,
    css: Option<string>,
    js: Option<string>,
    favicon: Option<string>,
    createdAt: nat,
    updatedAt: nat)

  /** One entry of the project list: no code fields. */
  datatype Summary = Summary(id: nat, name: Option<string>, createdAt: nat, updatedAt: nat)

  /** The JSON bodies this function answers with. */
  datatype Reply =
    | NoBody
    | ErrorJson(error: string)
    | ProjectJson(project: Project)
    | ListJson(projects: seq<Summary>)
    | CreatedJson(id: nat)
    | SuccessJson

  function ProjectOf(k: nat, row: Row): Project {
    Project(k, row.name, row.html, row.css, row.js, row.favicon, row.createdAt, row.updatedAt)
  }

  function SummaryOf(k: nat, row: Row): Summary {
    Summary(k, row.name, row.createdAt, row.updatedAt)
  }

  function Error(status: int, message: string): Outcome<Reply> {
    Reply(Response(status, Json, ErrorJson(message)))
  }

  function Ok(body: Reply): Outcome<Reply> {
    Reply(Response(200, Json, body))
  }

  // ---------------------------------------------------------------------------
  // Who is calling

  /** `headers.get('X-User-Id') or headers.get('x-user-id', 'anonymous')`. */
  function UserId(headers: map<string, string>): (u: string)
    ensures "X-User-Id" in headers && headers["X-User-Id"] != "" ==> u == headers["X-User-Id"]
    ensures !("X-User-Id" in headers && headers["X-User-Id"] != "") && "x-user-id" in headers ==> u == headers["x-user-id"]
    ensures !("X-User-Id" in headers && headers["X-User-Id"] != "") && "x-user-id" !in headers ==> u == Anonymous
  {
    var primary := Lookup(headers, "X-User-Id");
    if primary.Some? && primary.value != "" then primary.value
    else if "x-user-id" in headers then headers["x-user-id"]
    else Anonymous
  }

  /** The headers as the handler reads them; a missing key reads as `{}`. */
  function HeaderMap(h: Maybe<map<string, string>>): map<string, string> {
    if h.Present? then h.value else map[]
  }

  /** The user id every table access of this event is scoped to. */
  function Caller(ev: Event<Body>): string {
    UserId(HeaderMap(ev.headers))
  }

  /** `event.get('queryStringParameters') or {}`. */
  function QueryMap(q: Maybe<map<string, string>>): map<string, string> {
    if q.Present? then q.value else map[]
  }

  /** Python truthiness of the `id` read from a body. */
  predicate Truthy(v: Option<IdValue>) {
    match v
    case None => false
    case Some(IdNum(n)) => n != 0
    case Some(IdText(t)) => t != ""
  }

  /** How the `id = %s` comparison reads a parameter: a number as itself, text
      as the integer it spells, or not at all (the query then fails). */
  function KeyOf(v: IdValue): (k: Option<int>)
    ensures v.IdNum? ==> k == Some(v.n)
    ensures v.IdText? ==> (k.Some? <==> ParseNat(v.text).Some?)
    ensures v.IdText? && k.Some? ==> k.value == ParseNat(v.text).value
  {
    match v
    case IdNum(n) => Some(n)
    case IdText(t) =>
      match ParseNat(t)
      case Some(n) => Some(n)
      case None => None
  }

  /** The five text fields a POST or PUT passes as parameters. */
  predicate TextStorable(b: Body) {
    && NulFreeField(b.name) && NulFreeField(b.html) && NulFreeField(b.css)
    && NulFreeField(b.js) && NulFreeField(b.favicon)
  }

  /** An `id` sent as text is passed as a text parameter too. */
  predicate IdStorable(v: IdValue) {
    v.IdText? ==> NulFree(v.text)
  }

  /** `WHERE id = k AND user_id = user` selects a row. */
  predicate Owns(s: Store, k: int, user: string) {
    k >= 0 && k as nat in s.rows && s.rows[k as nat].owner == user
  }

  /** The table changed only in rows owned by `user`: every other owner's row
      is still there, unchanged, and every new or changed row is the user's. */
  ghost predicate ScopedTo(s: Store, s': Store, user: string) {
    && (forall k | k in s.rows && s.rows[k].owner != user :: k in s'.rows && s'.rows[k] == s.rows[k])
    && (forall k | k in s'.rows && !(k in s.rows && s'.rows[k] == s.rows[k]) :: s'.rows[k].owner == user)
  }

  // ---------------------------------------------------------------------------
  // GET

  /** GET `?id=`: the caller's project with that id, or 404 when the id names
      no row or another user's row. */
  function GetOne(s: Store, idText: string, user: string): (o: Outcome<Reply>)
    ensures o.Raised? <==> ParseNat(idText).None?
    ensures o.Raised? ==> o.fault == BadIdText
    ensures ParseNat(idText).Some? && Owns(s, ParseNat(idText).value, user)
            ==> o == Ok(ProjectJson(ProjectOf(ParseNat(idText).value, s.rows[ParseNat(idText).value])))
    ensures ParseNat(idText).Some? && !Owns(s, ParseNat(idText).value, user)
            ==> o == Error(404, NotFoundMessage)
  {
    match ParseNat(idText)
    case None => Raised(BadIdText)
    case Some(k) =>
      if Owns(s, k, user) then Ok(ProjectJson(ProjectOf(k, s.rows[k])))
      else Error(404, NotFoundMessage)
  }

  /** Most recently updated first. */
  ghost predicate ByRecency(xs: seq<Summary>) {
    forall i, j | 0 <= i < j < |xs| :: xs[i].updatedAt >= xs[j].updatedAt
  }

  /** The reference listing: the user's rows with id below `n`, each once, in
      ascending id order. */
  function OwnedSummaries(rows: map<nat, Row>, user: string, n: nat): (r: seq<Summary>)
    ensures forall i | 0 <= i < |r| :: r[i].id < n && r[i].id in rows && rows[r[i].id].owner == user
    ensures forall i | 0 <= i < |r| :: r[i] == SummaryOf(r[i].id, rows[r[i].id])
    ensures forall k | k < n && k in rows && rows[k].owner == user :: SummaryOf(k, rows[k]) in r
    ensures forall i, j | 0 <= i < j < |r| :: r[i].id < r[j].id
  {
    if n == 0 then []
    else
      var prev := OwnedSummaries(rows, user, n - 1);
      var k := n - 1;
      if k in rows && rows[k].owner == user then prev + [SummaryOf(k, rows[k])] else prev
  }

  function InsertByRecency(x: Summary, xs: seq<Summary>): (r: seq<Summary>)
    requires ByRecency(xs)
    ensures ByRecency(r)
    ensures multiset(r) == multiset(xs) + multiset{x}
  {
    if xs == [] then [x]
    else if x.updatedAt >= xs[0].updatedAt then
      ConsByRecency(x, xs);
      [x] + xs
    else
      var h, tail := xs[0], xs[1..];
      assert xs == [h] + tail;
      var rest := InsertByRecency(x, tail);
      HeadBoundsRest(h, tail, x, rest);
      ConsByRecency(h, rest);
      assert multiset([h] + rest) == multiset{h} + multiset(rest);
      [h] + rest
  }

  /** An entry at least as recent as the head of a sorted list can go first. */
  lemma ConsByRecency(h: Summary, xs: seq<Summary>)
    requires ByRecency(xs)
    requires |xs| > 0 ==> xs[0].updatedAt <= h.updatedAt
    ensures ByRecency([h] + xs)
  {
    var all := [h] + xs;
    forall i, j | 0 <= i < j < |all| ensures all[i].updatedAt >= all[j].updatedAt {
      assert all[j] == xs[j - 1];
      if i == 0 {
        assert xs[0].updatedAt >= xs[j - 1].updatedAt;
      } else {
        assert all[i] == xs[i - 1];
      }
    }
  }

  /** The head of a list sorted by recency is at least as recent as anything
      in its tail, and so as anything in the tail with an older entry added. */
  lemma HeadBoundsRest(h: Summary, tail: seq<Summary>, x: Summary, rest: seq<Summary>)
    requires ByRecency([h] + tail)
    requires x.updatedAt < h.updatedAt
    requires multiset(rest) == multiset(tail) + multiset{x}
    ensures forall j | 0 <= j < |rest| :: rest[j].updatedAt <= h.updatedAt
  {
    var all := [h] + tail;
    forall j | 0 <= j < |rest| ensures rest[j].updatedAt <= h.updatedAt {
      assert rest[j] in multiset(rest);
      if rest[j] != x {
        assert rest[j] in multiset(tail);
        var t :| 0 <= t < |tail| && tail[t] == rest[j];
        assert all[0] == h && all[t + 1] == tail[t];
        assert all[0].updatedAt >= all[t + 1].updatedAt;
      }
    }
  }

  function SortByRecency(xs: seq<Summary>): (r: seq<Summary>)
    ensures ByRecency(r)
    ensures multiset(r) == multiset(xs)
  {
    if xs == [] then []
    else
      assert xs == [xs[0]] + xs[1..];
      InsertByRecency(xs[0], SortByRecency(xs[1..]))
  }

  /** GET without an id: summaries of exactly the caller's projects, each once,
      most recently updated first. */
  function ListFor(s: Store, user: string): (r: seq<Summary>)
    requires Valid(s)
    ensures ByRecency(r)
    ensures multiset(r) == multiset(OwnedSummaries(s.rows, user, s.nextId))
    ensures forall k | k in s.rows && s.rows[k].owner == user :: SummaryOf(k, s.rows[k]) in r
    ensures forall x | x in r :: x.id in s.rows && s.rows[x.id].owner == user && x == SummaryOf(x.id, s.rows[x.id])
  {
    var owned := OwnedSummaries(s.rows, user, s.nextId);
    var r := SortByRecency(owned);
    assert forall x :: x in r <==> x in owned by {
      forall x ensures x in r <==> x in owned {
        assert x in r <==> x in multiset(r);
        assert x in owned <==> x in multiset(owned);
      }
    }
    r
  }

  /** GET: a missing or empty `id` lists exactly the caller's projects, most
      recently updated first; any other `id` is looked up as `GetOne` does.
      Either query passes the user id, and the lookup also the id text, as
      parameters, so a NUL in either escapes before the query runs. */
  function HandleGet(s: Store, query: map<string, string>, user: string): (o: Outcome<Reply>)
    requires Valid(s)
    ensures o == Raised(NulInText) <==> !NulFree(user) || ("id" in query && !NulFree(query["id"]))
    ensures NulFree(user) && ("id" !in query || query["id"] == "") ==>
              && o.Reply? && o.response.status == 200 && o.response.body.ListJson?
              && ByRecency(o.response.body.projects)
              && multiset(o.response.body.projects) == multiset(OwnedSummaries(s.rows, user, s.nextId))
              && (forall k | k in s.rows && s.rows[k].owner == user :: SummaryOf(k, s.rows[k]) in o.response.body.projects)
              && (forall x | x in o.response.body.projects :: x.id in s.rows && s.rows[x.id].owner == user)
    ensures NulFree(user) && "id" in query && query["id"] != "" && NulFree(query["id"]) ==>
              && o == GetOne(s, query["id"], user)
              && (o.Raised? <==> ParseNat(query["id"]).None?)
              && (ParseNat(query["id"]).Some? ==>
                    (o == Error(404, NotFoundMessage) <==> !Owns(s, ParseNat(query["id"]).value, user)))
  {
    var id := Lookup(query, "id");
    if !NulFree(user) || (id.Some? && !NulFree(id.value)) then Raised(NulInText)
    else if id.Some? && id.value != "" then GetOne(s, id.value, user)
    else Ok(ListJson(ListFor(s, user)))
  }

  // ---------------------------------------------------------------------------
  // POST

  /** The row a POST inserts: missing keys take their defaults, `null` keys
      store NULL. */
  function NewRow(b: Body, user: string, now: nat): (row: Row)
    ensures row.owner == user && row.createdAt == now && row.updatedAt == now
    ensures row.name == GetOr(b.name, DefaultName)
    ensures row.html == GetOr(b.html, "") && row.css == GetOr(b.css, "") && row.js == GetOr(b.js, "")
    ensures row.favicon == GetOr(b.favicon, "")
  {
    Row(user, GetOr(b.name, DefaultName), GetOr(b.html, ""), GetOr(b.css, ""), GetOr(b.js, ""), GetOr(b.favicon, ""), now, now)
  }

  /** POST: the insert passes the five text fields and the user id as
      parameters; a NUL in any of them escapes and nothing is inserted. */
  function HandlePost(s: Store, body: Maybe<Body>, user: string, now: nat): (r: (Store, Outcome<Reply>))
    requires Valid(s)
    ensures Valid(r.0)
    ensures body.Null? ==> r == (s, Raised(NullBody))
    ensures !body.Null? && !(NulFree(user) && TextStorable(if body.Present? then body.value else EmptyBody)) ==>
              r == (s, Raised(NulInText))
    ensures !body.Null? && NulFree(user) && TextStorable(if body.Present? then body.value else EmptyBody) ==>
              && s.nextId !in s.rows
              && r.0.rows.Keys == s.rows.Keys + {s.nextId}
              && (forall k | k in s.rows :: r.0.rows[k] == s.rows[k])
              && r.0.rows[s.nextId] == NewRow(if body.Present? then body.value else EmptyBody, user, now)
              && r.1 == Ok(CreatedJson(s.nextId))
  {
    if body.Null? then (s, Raised(NullBody))
    else
      var b := if body.Present? then body.value else EmptyBody;
      if !NulFree(user) || !TextStorable(b) then (s, Raised(NulInText))
      else
        var id := s.nextId;
        (Store(s.rows[id := NewRow(b, user, now)], id + 1), Ok(CreatedJson(id)))
  }

  // ---------------------------------------------------------------------------
  // PUT

  /** A PUT replaces all five fields: a key that is missing or `null` stores
      NULL. The owner and creation time stay; the update time is refreshed. */
  function Overwrite(row: Row, b: Body, now: nat): (row': Row)
    ensures row'.owner == row.owner && row'.createdAt == row.createdAt && row'.updatedAt == now
    ensures row'.name == Get(b.name) && row'.favicon == Get(b.favicon)
    ensures row'.html == Get(b.html) && row'.css == Get(b.css) && row'.js == Get(b.js)
  {
    Row(row.owner, Get(b.name), Get(b.html), Get(b.css), Get(b.js), Get(b.favicon), row.createdAt, now)
  }

  /** PUT: 400 without a truthy `id`, before any query; otherwise the update
      passes the five text fields, the id and the user id as parameters, so a
      NUL in any text among them escapes and nothing changes. */
  function HandlePut(s: Store, body: Maybe<Body>, user: string, now: nat): (r: (Store, Outcome<Reply>))
    requires Valid(s)
    ensures Valid(r.0)
    ensures body.Null? ==> r == (s, Raised(NullBody))
    ensures body.Present? && !Truthy(Get(body.value.id)) ==> r == (s, Error(400, IdRequiredMessage))
    ensures body.Absent? ==> r == (s, Error(400, IdRequiredMessage))
    ensures body.Present? && Truthy(Get(body.value.id))
            && !(NulFree(user) && TextStorable(body.value) && IdStorable(body.value.id.value)) ==>
              r == (s, Raised(NulInText))
    ensures body.Present? && Truthy(Get(body.value.id))
            && NulFree(user) && TextStorable(body.value) && IdStorable(body.value.id.value) ==>
              var k := KeyOf(body.value.id.value);
              && (k.None? ==> r == (s, Raised(BadIdText)))
              && (k.Some? && Owns(s, k.value, user) ==>
                    r == (Store(s.rows[k.value as nat := Overwrite(s.rows[k.value as nat], body.value, now)], s.nextId), Ok(SuccessJson)))
              && (k.Some? && !Owns(s, k.value, user) ==> r == (s, Ok(SuccessJson)))
  {
    if body.Null? then (s, Raised(NullBody))
    else
      var b := if body.Present? then body.value else EmptyBody;
      var id := Get(b.id);
      if !Truthy(id) then (s, Error(400, IdRequiredMessage))
      else if !NulFree(user) || !TextStorable(b) || !IdStorable(id.value) then (s, Raised(NulInText))
      else
        match KeyOf(id.value)
        case None => (s, Raised(BadIdText))
        case Some(k) =>
          if Owns(s, k, user) then
            (Store(s.rows[k as nat := Overwrite(s.rows[k as nat], b, now)], s.nextId), Ok(SuccessJson))
          else (s, Ok(SuccessJson))
  }

  // ---------------------------------------------------------------------------
  // DELETE

  /** DELETE: 400 without an `id`, before any query; otherwise the delete
      passes the id text and the user id as parameters, so a NUL in either
      escapes and nothing is removed. */
  function HandleDelete(s: Store, query: map<string, string>, user: string): (r: (Store, Outcome<Reply>))
    requires Valid(s)
    ensures Valid(r.0)
    ensures var id := Lookup(query, "id");
            && (id.None? || id.value == "" ==> r == (s, Error(400, IdRequiredMessage)))
            && (id.Some? && id.value != "" && !(NulFree(id.value) && NulFree(user)) ==> r == (s, Raised(NulInText)))
            && (id.Some? && id.value != "" && NulFree(id.value) && NulFree(user) && ParseNat(id.value).None? ==>
                  r == (s, Raised(BadIdText)))
            && (id.Some? && id.value != "" && NulFree(user) && ParseNat(id.value).Some? ==>
                  var k := ParseNat(id.value).value;
                  r == (Store(if Owns(s, k, user) then s.rows - {k} else s.rows, s.nextId), Ok(SuccessJson)))
  {
    var id := Lookup(query, "id");
    if id.None? || id.value == "" then (s, Error(400, IdRequiredMessage))
    else if !NulFree(id.value) || !NulFree(user) then (s, Raised(NulInText))
    else
      match ParseNat(id.value)
      case None => (s, Raised(BadIdText))
      case Some(k) =>
        var rows := if Owns(s, k, user) then s.rows - {k} else s.rows;
        (Store(rows, s.nextId), Ok(SuccessJson))
  }

  // ---------------------------------------------------------------------------
  // Dispatch

  /** One invocation of the function. */
  function Handle(s: Store, ev: Event<Body>, now: nat): (r: (Store, Outcome<Reply>))
    requires Valid(s)
    ensures Valid(r.0)
    ensures r.1.Raised? ==> r.0 == s
    ensures ScopedTo(s, r.0, Caller(ev))
    ensures Method(ev) == Some("OPTIONS") ==> r == (s, Preflight(NoBody))
    ensures Method(ev) !in {Some("POST"), Some("PUT"), Some("DELETE")} ==> r.0 == s
    ensures ev.headers.Null? && Method(ev) != Some("OPTIONS") ==> r == (s, Raised(NullHeaders))
    ensures !ev.headers.Null? && Method(ev) !in {Some("OPTIONS"), Some("GET"), Some("POST"), Some("PUT"), Some("DELETE")}
            ==> r == (s, Error(405, NotAllowedMessage))
    ensures Method(ev) == Some("GET") && !ev.headers.Null? ==> r.1 == HandleGet(s, QueryMap(ev.query), Caller(ev))
  {
    var m := Method(ev);
    if m == Some("OPTIONS") then (s, Preflight(NoBody))
    else if ev.headers.Null? then (s, Raised(NullHeaders))
    else
      var user := Caller(ev);
      if m == Some("GET") then (s, HandleGet(s, QueryMap(ev.query), user))
      else if m == Some("POST") then HandlePost(s, ev.body, user, now)
      else if m == Some("PUT") then HandlePut(s, ev.body, user, now)
      else if m == Some("DELETE") then HandleDelete(s, QueryMap(ev.query), user)
      else (s, Error(405, NotAllowedMessage))
  }

  // ---------------------------------------------------------------------------
  // Round trips through the store

  function GetById(headers: map<string, string>, k: nat): Event<Body> {
    Event(Present("GET"), Present(headers), Present(map["id" := NatToDecimal(k)]), Absent)
  }

  /** A project created by POST reads back, through GET `?id=` with the
      returned id and the same user headers, with the posted name, code and
      favicon (missing keys showing their defaults). */
  lemma PostThenGet(s: Store, headers: map<string, string>, b: Body, t1: nat, t2: nat)
    requires Valid(s) && NulFree(UserId(headers)) && TextStorable(b)
    ensures var r1 := Handle(s, Event(Present("POST"), Present(headers), Absent, Present(b)), t1);
            && r1.1 == Ok(CreatedJson(s.nextId))
            && Handle(r1.0, GetById(headers, s.nextId), t2).1
               == Ok(ProjectJson(Project(s.nextId, GetOr(b.name, DefaultName), GetOr(b.html, ""), GetOr(b.css, ""),
                                         GetOr(b.js, ""), GetOr(b.favicon, ""), t1, t1)))
  {
    ParseNatToDecimal(s.nextId);
  }

  /** A GET without a usable `id` (no query, a `null` query, no `id` key or an
      empty one) lists exactly the caller's projects, newest first, and
      leaves the store as it was. */
  lemma GetWithoutIdLists(s: Store, headers: map<string, string>, q: Maybe<map<string, string>>, now: nat)
    requires Valid(s) && NulFree(UserId(headers))
    requires q.Present? ==> "id" !in q.value || q.value["id"] == ""
    ensures var r := Handle(s, Event(Present("GET"), Present(headers), q, Absent), now);
            && r.0 == s
            && r.1 == Ok(ListJson(ListFor(s, UserId(headers))))
            && (forall x | x in r.1.response.body.projects :: s.rows[x.id].owner == UserId(headers))
  {
  }

  /** Another user cannot read a freshly created project: the same GET with
      different user headers answers 404. */
  lemma PostThenForeignGet(s: Store, owner: map<string, string>, other: map<string, string>, b: Body, t1: nat, t2: nat)
    requires Valid(s) && UserId(owner) != UserId(other) && NulFree(UserId(other))
    ensures var r1 := Handle(s, Event(Present("POST"), Present(owner), Absent, Present(b)), t1);
            Handle(r1.0, GetById(other, s.nextId), t2).1 == Error(404, NotFoundMessage)
  {
    ParseNatToDecimal(s.nextId);
  }

  /** After the owner's PUT, GET shows exactly the body's five fields (NULL for
      those the body leaves out), the original creation time and the new
      update time. */
  lemma PutThenGet(s: Store, headers: map<string, string>, k: nat, b: Body, t1: nat, t2: nat)
    requires Valid(s) && Owns(s, k, UserId(headers)) && NulFree(UserId(headers)) && TextStorable(b)
    requires b.id == Present(IdNum(k))
    ensures var r1 := Handle(s, Event(Present("PUT"), Present(headers), Absent, Present(b)), t1);
            && r1.1 == Ok(SuccessJson)
            && Handle(r1.0, GetById(headers, k), t2).1
               == Ok(ProjectJson(Project(k, Get(b.name), Get(b.html), Get(b.css), Get(b.js), Get(b.favicon),
                                         s.rows[k].createdAt, t1)))
  {
    ParseNatToDecimal(k);
  }

  /** After the owner's DELETE `?id=`, GET with that id answers 404. */
  lemma DeleteThenGet(s: Store, headers: map<string, string>, k: nat, t1: nat, t2: nat)
    requires Valid(s) && Owns(s, k, UserId(headers)) && NulFree(UserId(headers))
    ensures var r1 := Handle(s, Event(Present("DELETE"), Present(headers), Present(map["id" := NatToDecimal(k)]), Absent), t1);
            && r1.1 == Ok(SuccessJson)
            && k !in r1.0.rows
            && Handle(r1.0, GetById(headers, k), t2).1 == Error(404, NotFoundMessage)
  {
    ParseNatToDecimal(k);
  }

  /** Text holding a NUL character never reaches the table: a POST, or a PUT
      naming one of the caller's projects, whose text fields or user id hold
      one escapes and leaves the table and its id sequence as they were. */
  lemma NulTextRefused(s: Store, headers: map<string, string>, b: Body, k: nat, t: nat)
    requires Valid(s) && Owns(s, k, UserId(headers))
    requires !(NulFree(UserId(headers)) && TextStorable(b))
    ensures Handle(s, Event(Present("POST"), Present(headers), Absent, Present(b)), t) == (s, Raised(NulInText))
    ensures Handle(s, Event(Present("PUT"), Present(headers), Absent, Present(b.(id := Present(IdNum(k))))), t)
            == (s, Raised(NulInText))
  {
    assert TextStorable(b.(id := Present(IdNum(k)))) == TextStorable(b);
  }
}

=== FILE: publish.dfy ===
/** The publish function: POST stores a site's HTML, CSS and JavaScript under
    a freshly drawn eight-character domain; GET `?domain=` renders the stored
    site as one page. The `sites` table is a map from domain to site. */
module Publish {
  import opened Common
  import opened Strings
  import opened Http
  import Page

  const DomainAlphabet := "abcdefghijklmnopqrstuvwxyz0123456789"
  const DomainLength := 8
  const SiteUrlBase := "https://plutsites.example.com/"
  const DomainRequiredMessage := "Domain parameter required"
  const SiteNotFoundMessage := "Site not found"

  /** A draw of `random.choices(ascii_lowercase + digits, k=8)`. */
  predicate ValidDomain(d: string) {
    |d| == DomainLength && forall i | 0 <= i < |d| :: ('a' <= d[i] <= 'z' || '0' <= d[i] <= '9')
  }

  /** The decoded JSON request body; any other key (a favicon, say) is ignored. */
  datatype Body = Body(html: Maybe<string>, css: Maybe<string>, js: Maybe<string>)

  const EmptyBody := Body(Absent, Absent, Absent)

  /** The three code fields a POST passes as parameters. */
  predicate SiteStorable(b: Body) {
    NulFreeField(b.html) && NulFreeField(b.css) && NulFreeField(b.js)
  }

  /** One stored site; each column may be NULL. */
  datatype Site = Site(html: Option<string>, css: Option<string>, js: Option<string>)

  type Sites = map<string, Site>

  datatype Reply =
    | NoBody
    | ErrorJson(error: string)
    | PublishedJson(success: bool, domain: string, url: string)
    | PageHtml(page: string)

  /** The page the GET renders: the template of the published site. */
  const SiteSkeleton := Page.Skeleton(
    "<!DOCTYPE html>\n<html>\n<head>\n    <meta charset=\"UTF-8\">\n    <meta name=\"viewport\" content=\"width=device-width, initial-scale=1.0\">\n    ",
    "\n</head>\n<body>\n    ",
    "\n    ",
    "\n</body>\n</html>")

  /** An f-string hole: a NULL column prints as `None`. */
  function PyStr(v: Option<string>): string {
    match v
    case Some(x) => x
    case None => "None"
  }

  function Render(site: Site): string {
    Page.Fill(SiteSkeleton, Page.Parts(PyStr(site.css), PyStr(site.html), PyStr(site.js)))
  }

  function Error(status: int, message: string): Outcome<Reply> {
    Reply(Response(status, Json, ErrorJson(message)))
  }

  /** The site a POST stores: missing keys become empty strings, `null` keys NULL. */
  function SiteOf(b: Body): (site: Site)
    ensures site.html == GetOr(b.html, "") && site.css == GetOr(b.css, "") && site.js == GetOr(b.js, "")
  {
    Site(GetOr(b.html, ""), GetOr(b.css, ""), GetOr(b.js, ""))
  }

  /** POST: the insert passes the domain and the three code fields as
      parameters. A NUL in any of them escapes before the insert runs; a
      domain already stored then violates the table's key. */
  function HandlePost(sites: Sites, body: Maybe<Body>, domain: string): (r: (Sites, Outcome<Reply>))
    ensures body.Null? ==> r == (sites, Raised(NullBody))
    ensures !body.Null? && !(NulFree(domain) && SiteStorable(if body.Present? then body.value else EmptyBody)) ==>
              r == (sites, Raised(NulInText))
    ensures !body.Null? && NulFree(domain) && SiteStorable(if body.Present? then body.value else EmptyBody) ==>
              && (domain in sites ==> r == (sites, Raised(DuplicateDomain)))
              && (domain !in sites ==>
              && r.0.Keys == sites.Keys + {domain}
              && (forall d | d in sites :: r.0[d] == sites[d])
              && r.0[domain] == SiteOf(if body.Present? then body.value else EmptyBody)
              && r.1 == Reply(Response(200, Json, PublishedJson(true, domain, SiteUrlBase + domain))))
  {
    if body.Null? then (sites, Raised(NullBody))
    else
      var b := if body.Present? then body.value else EmptyBody;
      if !NulFree(domain) || !SiteStorable(b) then (sites, Raised(NulInText))
      else if domain in sites then (sites, Raised(DuplicateDomain))
      else (sites[domain := SiteOf(b)], Reply(Response(200, Json, PublishedJson(true, domain, SiteUrlBase + domain))))
  }

  /** GET: 400 without a domain; the lookup passes the domain as a parameter,
      so one holding NUL escapes; 404 for an unknown domain, else the rendered
      page. */
  function HandleGet(sites: Sites, query: Maybe<map<string, string>>): (o: Outcome<Reply>)
    ensures query.Null? ==> o == Raised(NullQuery)
    ensures query.Absent? ==> o == Error(400, DomainRequiredMessage)
    ensures query.Present? && ("domain" !in query.value || query.value["domain"] == "") ==>
              o == Error(400, DomainRequiredMessage)
    ensures query.Present? && "domain" in query.value && !NulFree(query.value["domain"]) ==> o == Raised(NulInText)
    ensures query.Present? && "domain" in query.value && query.value["domain"] != "" && NulFree(query.value["domain"]) ==>
              var d := query.value["domain"];
              o == (if d in sites then Reply(Response(200, Html, PageHtml(Render(sites[d]))))
                    else Error(404, SiteNotFoundMessage))
  {
    if query.Null? then Raised(NullQuery)
    else
      var params := if query.Present? then query.value else map[];
      var domain := if "domain" in params then params["domain"] else "";
      if domain == "" then Error(400, DomainRequiredMessage)
      else if !NulFree(domain) then Raised(NulInText)
      else if domain !in sites then Error(404, SiteNotFoundMessage)
      else Reply(Response(200, Html, PageHtml(Render(sites[domain]))))
  }

  /** One invocation; `domain` is this invocation's random draw. */
  function Handle(sites: Sites, ev: Event<Body>, domain: string): (r: (Sites, Outcome<Reply>))
    requires ValidDomain(domain)
    ensures r.1.Raised? ==> r.0 == sites
    ensures Method(ev) != Some("POST") ==> r.0 == sites
    ensures r.0 != sites ==> domain !in sites && domain in r.0 && r.0 == sites[domain := r.0[domain]]
    ensures Method(ev) == Some("OPTIONS") ==> r.1 == Preflight(NoBody)
    ensures Method(ev) !in {Some("OPTIONS"), Some("GET"), Some("POST")} ==> r.1 == Error(405, NotAllowedMessage)
  {
    var m := Method(ev);
    if m == Some("OPTIONS") then (sites, Preflight(NoBody))
    else if m == Some("POST") then HandlePost(sites, ev.body, domain)
    else if m == Some("GET") then (sites, HandleGet(sites, ev.query))
    else (sites, Error(405, NotAllowedMessage))
  }

  /** A publish reply names the invocation's own draw, its URL is the site
      base plus that domain, the site is stored under it, and the domain has
      eight characters from the lowercase letters and digits. */
  lemma PublishedDomainShape(sites: Sites, ev: Event<Body>, domain: string)
    requires ValidDomain(domain)
    requires Handle(sites, ev, domain).1.Reply?
    requires Handle(sites, ev, domain).1.response.body.PublishedJson?
    ensures var body := Handle(sites, ev, domain).1.response.body;
            && body.success && body.domain == domain && body.url == SiteUrlBase + domain
            && domain in Handle(sites, ev, domain).0 && domain !in sites
            && |body.domain| == 8 && forall i | 0 <= i < |body.domain| :: body.domain[i] in DomainAlphabet
  {
  }

  /** Publishing then visiting `?domain=` with the returned domain shows
      exactly the posted HTML, CSS and JavaScript: splitting the served page
      along the template yields them, provided the CSS holds no `</style>`
      and the JavaScript no `<script>`. Needs a domain not yet taken; a
      repeated draw makes the insert fail instead. */
  lemma PublishThenVisit(sites: Sites, html: string, css: string, js: string, domain: string, draw2: string)
    requires ValidDomain(domain) && ValidDomain(draw2) && domain !in sites
    requires NulFree(html) && NulFree(css) && NulFree(js)
    requires Page.Embeddable(Page.Parts(css, html, js))
    ensures var post := Event(Present("POST"), Absent, Absent, Present(Body(Present(html), Present(css), Present(js))));
            var r1 := Handle(sites, post, domain);
            && r1.1 == Reply(Response(200, Json, PublishedJson(true, domain, SiteUrlBase + domain)))
            && var get := Event(Present("GET"), Absent, Present(map["domain" := domain]), Absent);
               var r2 := Handle(r1.0, get, draw2);
               && r2.0 == r1.0
               && r2.1.Reply? && r2.1.response.status == 200 && r2.1.response.contentType == Html
               && r2.1.response.body.PageHtml?
               && Page.Parse(SiteSkeleton, r2.1.response.body.page) == Some(Page.Parts(css, html, js))
  {
    Page.ParseFill(SiteSkeleton, Page.Parts(css, html, js));
  }

  /** A draw that repeats a stored domain is not handled: the insert fails
      (unless the code already made it escape) and the stored site stays. */
  lemma CollidingDraw(sites: Sites, b: Body, domain: string)
    requires ValidDomain(domain) && domain in sites
    ensures var post := Event(Present("POST"), Absent, Absent, Present(b));
            Handle(sites, post, domain) == (sites, Raised(if SiteStorable(b) then DuplicateDomain else NulInText))
  {
  }

  /** A key posted as `null` is stored as NULL and the page shows the text
      `None` in its place; a missing key is stored as the empty string. */
  lemma NullKeyShowsNone(sites: Sites, css: string, js: string, domain: string, draw2: string)
    requires ValidDomain(domain) && ValidDomain(draw2) && domain !in sites && NulFree(css)
    ensures var post := Event(Present("POST"), Absent, Absent, Present(Body(Null, Present(css), Absent)));
            var get := Event(Present("GET"), Absent, Present(map["domain" := domain]), Absent);
            Handle(Handle(sites, post, domain).0, get, draw2).1
              == Reply(Response(200, Html, PageHtml(Page.Fill(SiteSkeleton, Page.Parts(css, "None", "")))))
  {
  }

  /** Code holding a NUL character is never published: the POST escapes, the
      table is unchanged, and the drawn domain stays unknown. */
  lemma NulCodeRefused(sites: Sites, b: Body, domain: string, draw2: string)
    requires ValidDomain(domain) && ValidDomain(draw2) && domain !in sites
    requires !SiteStorable(b)
    ensures var post := Event(Present("POST"), Absent, Absent, Present(b));
            var get := Event(Present("GET"), Absent, Present(map["domain" := domain]), Absent);
            && Handle(sites, post, domain) == (sites, Raised(NulInText))
            && Handle(Handle(sites, post, domain).0, get, draw2).1 == Error(404, SiteNotFoundMessage)
  {
  }
}

=== FILE: session.dfy ===
/** The editor page: the three code buffers, the live preview built from them,
    the publish button's request/response cycle, and the visual builder
    writing its generated code into the buffers. Notifications are kept as an
    append-only log so that "exactly one notification" can be stated. */
module Session {
  import opened Common
  import opened Http
  import Strings
  import Page
  import Builder
  import Publish

  const InitialHtml := "<h1>Hello World!</h1>\n<p>Start coding...</p>"
  const InitialCss := "body {\n  font-family: Arial;\n  padding: 20px;\n}\n\nh1 {\n  color: #a855f7;\n}"
  const InitialJs := "console.log(\"PlutSites ready!\");"

  /** The publish function's address; the shared link is this plus `?domain=`. */
  const PublishEndpoint := "https://functions.poehali.dev/c4698a17-171d-4da7-b5ce-7df72c87f5a6"

  datatype Notice =
    | PublishedNotice(domain: string)   // "site published", naming the domain
    | PublishFailedNotice               // the destructive "publish failed" notice
    | CodeGeneratedNotice               // the builder's "code generated" notice

  datatype Session = Session(
    html: string,
    css: string,
    js: string,
    isPublishing: bool,
    publishedUrl: string,
    notices: seq<Notice>)

  const Initial := Session(InitialHtml, InitialCss, InitialJs, false, "", [])

  /** The page opens idle, with no shared link and no notices, and its first
      publish press posts exactly the three non-empty default buffers. */
  lemma InitialPublish()
    ensures !Initial.isPublishing && Initial.publishedUrl == "" && Initial.notices == []
    ensures |Initial.html| > 0 && |Initial.css| > 0 && |Initial.js| > 0
    ensures PressPublish(Initial).1 == Some(PublishRequest(InitialHtml, InitialCss, InitialJs))
    ensures PressPublish(Initial).0.isPublishing
  {
  }

  /** The JSON the publish button posts: exactly the three buffers. */
  datatype PublishRequest = PublishRequest(html: string, css: string, js: string)

  /** How the awaited publish call ended, as the page sees it: a parsed body
      whose `success` is truthy (with its `domain`), a parsed body without it,
      or a thrown fetch or JSON parse. */
  datatype PublishResult = Succeeded(domain: string) | Unsuccessful | Threw

  /** The preview template: the buffers dropped verbatim into an indented page. */
  const PreviewSkeleton := Page.Skeleton(
    "\n      <!DOCTYPE html>\n      <html>\n        <head>\n          ",
    "\n        </head>\n        <body>\n          ",
    "\n          ",
    "\n        </body>\n      </html>\n    ")

  function Preview(s: Session): string {
    Page.Fill(PreviewSkeleton, Page.Parts(s.css, s.html, s.js))
  }

  /** Splitting the preview along its template recovers exactly the buffers
      when they are embeddable, and does not yield them otherwise: the preview
      determines the buffers it was built from. */
  lemma PreviewShowsBuffers(s: Session)
    ensures Page.Parse(PreviewSkeleton, Preview(s)) == Some(Page.Parts(s.css, s.html, s.js))
            <==> Page.Embeddable(Page.Parts(s.css, s.html, s.js))
  {
    Page.FillParseIff(PreviewSkeleton, Preview(s), Page.Parts(s.css, s.html, s.js));
  }

  /** Typing into one of the editors replaces that buffer alone. */
  datatype Buffer = HtmlBuffer | CssBuffer | JsBuffer

  function Edit(s: Session, b: Buffer, text: string): (r: Session)
    ensures r.html == (if b == HtmlBuffer then text else s.html)
    ensures r.css == (if b == CssBuffer then text else s.css)
    ensures r.js == (if b == JsBuffer then text else s.js)
    ensures r.isPublishing == s.isPublishing && r.publishedUrl == s.publishedUrl && r.notices == s.notices
  {
    match b
    case HtmlBuffer => s.(html := text)
    case CssBuffer => s.(css := text)
    case JsBuffer => s.(js := text)
  }

  /** Pressing the publish button: disabled while a publish is in flight;
      otherwise it raises the flag and sends the current buffers. */
  function PressPublish(s: Session): (r: (Session, Option<PublishRequest>))
    ensures s.isPublishing <==> r.1.None?
    ensures s.isPublishing ==> r.0 == s
    ensures !s.isPublishing ==> r.0 == s.(isPublishing := true)
    ensures r.1.Some? ==> r.1.value.html == s.html && r.1.value.css == s.css && r.1.value.js == s.js
  {
    if s.isPublishing then (s, None)
    else (s.(isPublishing := true), Some(PublishRequest(s.html, s.css, s.js)))
  }

  /** The settled publish call: the flag always drops; a success stores the
      shareable link and adds one notice naming the domain; a throw adds one
      failure notice; a parsed body without `success` changes nothing else.
      The buffers never change. */
  function FinishPublish(s: Session, res: PublishResult): (r: Session)
    ensures !r.isPublishing
    ensures r.html == s.html && r.css == s.css && r.js == s.js
    ensures res.Succeeded? ==>
              && r.publishedUrl == PublishEndpoint + "?domain=" + res.domain
              && r.notices == s.notices + [PublishedNotice(res.domain)]
    ensures res.Unsuccessful? ==> r.publishedUrl == s.publishedUrl && r.notices == s.notices
    ensures res.Threw? ==> r.publishedUrl == s.publishedUrl && r.notices == s.notices + [PublishFailedNotice]
  {
    match res
    case Succeeded(d) =>
      s.(isPublishing := false, publishedUrl := PublishEndpoint + "?domain=" + d,
         notices := s.notices + [PublishedNotice(d)])
    case Unsuccessful => s.(isPublishing := false)
    case Threw => s.(isPublishing := false, notices := s.notices + [PublishFailedNotice])
  }

  /** How the page reads a response of the publish function: a JSON body with
      a true `success` carries a domain; any other JSON body lacks `success`;
      the empty preflight body and an HTML page are not JSON, so parsing them
      throws. */
  function ReadPublishResponse(resp: Response<Publish.Reply>): (res: PublishResult)
    ensures res.Succeeded? <==> resp.body.PublishedJson? && resp.body.success
    ensures res.Succeeded? ==> res.domain == resp.body.domain
    ensures res.Threw? <==> resp.body.NoBody? || resp.body.PageHtml?
  {
    match resp.body
    case PublishedJson(success, domain, _) => if success then Succeeded(domain) else Unsuccessful
    case ErrorJson(_) => Unsuccessful
    case NoBody => Threw
    case PageHtml(_) => Threw
  }

  /** The POST event the platform hands the publish function for a request. */
  function PostEvent(req: PublishRequest): Event<Publish.Body> {
    Event(Present("POST"), Present(map["Content-Type" := "application/json"]), Absent,
          Present(Publish.Body(Present(req.html), Present(req.css), Present(req.js))))
  }

  /** The GET event that opening the shared link produces. */
  function VisitEvent(domain: string): Event<Publish.Body> {
    Event(Present("GET"), Absent, Present(map["domain" := domain]), Absent)
  }

  /** Setting the builder's generated code: the HTML and CSS buffers take the
      generated documents, the JavaScript buffer keeps its text, and one
      notice is added. */
  function ApplyBuilder(s: Session, els: seq<Builder.Element>): (r: Session)
    ensures r.html == Builder.Generate(els).html && r.css == Builder.Generate(els).css
    ensures r.js == s.js && r.isPublishing == s.isPublishing && r.publishedUrl == s.publishedUrl
    ensures r.notices == s.notices + [CodeGeneratedNotice]
  {
    var g := Builder.Generate(els);
    s.(html := g.html, css := g.css, notices := s.notices + [CodeGeneratedNotice])
  }

  /** End to end: pressing publish on an idle page whose buffers are
      embeddable and free of NUL characters, with a fresh domain drawn,
      leaves the page idle holding the link `PublishEndpoint?domain=<domain>`
      with one new notice, and a visit to that domain serves a page that
      splits back into exactly the buffers that were published. */
  lemma PublishRoundTrip(s: Session, sites: Publish.Sites, domain: string, draw2: string)
    requires !s.isPublishing
    requires Publish.ValidDomain(domain) && Publish.ValidDomain(draw2) && domain !in sites
    requires Page.Embeddable(Page.Parts(s.css, s.html, s.js))
    requires Strings.NulFree(s.html) && Strings.NulFree(s.css) && Strings.NulFree(s.js)
    ensures var (s1, req) := PressPublish(s);
            && s1.isPublishing && req.Some?
            && var (sites1, out) := Publish.Handle(sites, PostEvent(req.value), domain);
               && out.Reply?
               && var s2 := FinishPublish(s1, ReadPublishResponse(out.response));
                  && !s2.isPublishing
                  && s2.publishedUrl == PublishEndpoint + "?domain=" + domain
                  && s2.notices == s.notices + [PublishedNotice(domain)]
                  && var (_, page) := Publish.Handle(sites1, VisitEvent(domain), draw2);
                     && page.Reply? && page.response.body.PageHtml?
                     && Page.Parse(Publish.SiteSkeleton, page.response.body.page)
                        == Some(Page.Parts(s.css, s.html, s.js))
  {
    var body := Publish.Body(Present(s.html), Present(s.css), Present(s.js));
    assert PostEvent(PressPublish(s).1.value).body == Present(body);
    assert Strings.NulFree(domain) && Publish.SiteStorable(body);
    var sites1 := sites[domain := Publish.SiteOf(body)];
    assert Publish.Handle(sites, PostEvent(PressPublish(s).1.value), domain)
           == (sites1, Reply(Response(200, Json, Publish.PublishedJson(true, domain, Publish.SiteUrlBase + domain))));
    assert Publish.Handle(sites1, VisitEvent(domain), draw2).1
           == Reply(Response(200, Html, Publish.PageHtml(Publish.Render(sites1[domain]))));
    Page.ParseFill(Publish.SiteSkeleton, Page.Parts(s.css, s.html, s.js));
  }

  /** A second press while the first publish is in flight sends nothing, so
      one press yields at most one published site. */
  lemma DoublePressSendsOnce(s: Session)
    requires !s.isPublishing
    ensures PressPublish(s).1.Some?
    ensures PressPublish(PressPublish(s).0).1.None?
    ensures PressPublish(PressPublish(s).0).0 == PressPublish(s).0
  {
  }
}

=== FILE: strings.dfy ===
/** Substring search and decimal numerals over `string` (a `seq<char>`). */
module Strings {
  import opened Common

  /** `pat` occurs in `s` starting at position `j`. */
  predicate OccursAt(s: string, pat: string, j: nat) {
    j + |pat| <= |s| && s[j..j + |pat|] == pat
  }

  /** `pat` occurs nowhere in `s`. */
  ghost predicate Free(s: string, pat: string) {
    forall j: nat :: !OccursAt(s, pat, j)
  }

  /** The first position at which `pat` occurs in `s` (JavaScript `indexOf`). */
  function IndexOf(s: string, pat: string): (r: Option<nat>)
    ensures r.Some? ==> OccursAt(s, pat, r.value)
    ensures r.Some? ==> forall j: nat :: j < r.value ==> !OccursAt(s, pat, j)
    ensures r.None? ==> Free(s, pat)
    decreases |s|
  {
    if |s| < |pat| then None
    else if pat <= s then Some(0)
    else
      assert !OccursAt(s, pat, 0);
      assert forall j: nat :: 0 < j ==> OccursAt(s, pat, j) == OccursAt(s[1..], pat, j - 1);
      match IndexOf(s[1..], pat)
      case None => None
      case Some(i) => Some(i + 1)
  }

  /** The last position at which `pat` occurs in `s` (JavaScript `lastIndexOf`). */
  function LastIndexOf(s: string, pat: string): (r: Option<nat>)
    ensures r.Some? ==> OccursAt(s, pat, r.value)
    ensures r.Some? ==> forall j: nat :: r.value < j ==> !OccursAt(s, pat, j)
    ensures r.None? ==> Free(s, pat)
    decreases |s|
  {
    if |s| < |pat| then None
    else if s[|s| - |pat|..] == pat then Some(|s| - |pat|)
    else
      var s' := s[..|s| - 1];
      DropLastOccurs(s, pat);
      assert !OccursAt(s, pat, |s| - |pat|);
      LastIndexOf(s', pat)
  }

  /** Dropping the last character keeps every occurrence that ends before it. */
  lemma DropLastOccurs(s: string, pat: string)
    requires |s| > 0
    ensures forall j: nat :: j + |pat| < |s| ==> OccursAt(s, pat, j) == OccursAt(s[..|s| - 1], pat, j)
  {
    forall j: nat | j + |pat| < |s|
      ensures OccursAt(s, pat, j) == OccursAt(s[..|s| - 1], pat, j)
    {
      assert s[..|s| - 1][j..j + |pat|] == s[j..j + |pat|];
    }
  }

  /** The first character of `pat` does not recur later in `pat`; so no
      occurrence of `pat` can overlap another occurrence of it. Every tag
      delimiter of the page template has this shape. */
  predicate HeadUnique(pat: string) {
    |pat| > 0 && forall m | 0 < m < |pat| :: pat[m] != pat[0]
  }

  /** The first occurrence of `pat` in `a + b`, where `b` begins with `pat` and
      `a` does not contain it, is exactly where `b` begins. */
  lemma IndexOfAtJoin(a: string, b: string, pat: string)
    requires HeadUnique(pat) && pat <= b && Free(a, pat)
    ensures IndexOf(a + b, pat) == Some(|a|)
  {
    var s := a + b;
    assert s[|a|..|a| + |pat|] == b[..|pat|];
    assert OccursAt(s, pat, |a|);
    forall j: nat | j < |a|
      ensures !OccursAt(s, pat, j)
    {
      if j + |pat| <= |a| {
        assert s[j..j + |pat|] == a[j..j + |pat|];
        assert !OccursAt(a, pat, j);
      } else {
        var m := |a| - j;
        assert s[|a|] == b[0] == pat[0] != pat[m];
        assert j + m == |a|;
      }
    }
  }

  /** The last occurrence of `pat` in `a + b`, where `a` ends with `pat` and `b`
      does not contain it, is exactly where that trailing `pat` of `a` begins. */
  lemma LastIndexOfAtJoin(a: string, b: string, pat: string)
    requires HeadUnique(pat) && |pat| <= |a| && a[|a| - |pat|..] == pat && Free(b, pat)
    ensures LastIndexOf(a + b, pat) == Some(|a| - |pat|)
  {
    var s := a + b;
    var k := |a| - |pat|;
    assert s[k..k + |pat|] == a[k..];
    assert OccursAt(s, pat, k);
    forall j: nat | k < j
      ensures !OccursAt(s, pat, j)
    {
      if j + |pat| > |s| {
      } else if |a| <= j {
        assert s[j..j + |pat|] == b[j - |a|..j - |a| + |pat|];
        assert !OccursAt(b, pat, j - |a|);
      } else {
        var m := j - k;
        assert s[j] == a[j] == pat[m] != pat[0];
      }
    }
  }

  // ---------------------------------------------------------------------------
  // Cutting a string at fixed text

  /** What follows `pre`, when `s` starts with it. */
  function CutPrefix(pre: string, s: string): (r: Option<string>)
    ensures r.Some? <==> pre <= s
    ensures r.Some? ==> s == pre + r.value
  {
    if pre <= s then
      assert s == pre + s[|pre|..];
      Some(s[|pre|..])
    else None
  }

  /** What precedes `suf`, when `s` ends with it. */
  function CutSuffix(suf: string, s: string): (r: Option<string>)
    ensures r.Some? <==> |suf| <= |s| && s[|s| - |suf|..] == suf
    ensures r.Some? ==> s == r.value + suf
  {
    if |suf| <= |s| && s[|s| - |suf|..] == suf then
      assert s == s[..|s| - |suf|] + suf;
      Some(s[..|s| - |suf|])
    else None
  }

  /** Splits `s` where `pat` first occurs: the text before it, which does not
      contain `pat`, and the rest, which starts with `pat`. */
  function SplitAtFirst(s: string, pat: string): (r: Option<(string, string)>)
    requires |pat| > 0
    ensures r.Some? ==> s == r.value.0 + r.value.1 && pat <= r.value.1 && Free(r.value.0, pat)
  {
    match IndexOf(s, pat)
    case None => None
    case Some(i) =>
      assert OccursAt(s, pat, i);
      var before := s[..i];
      assert Free(before, pat) by {
        forall t: nat ensures !OccursAt(before, pat, t) {
          if t + |pat| <= |before| {
            assert t < i;
            assert forall m | t <= m < t + |pat| :: before[m] == s[m];
            assert before[t..t + |pat|] == s[t..t + |pat|];
            assert !OccursAt(s, pat, t);
          }
        }
      }
      assert s == before + s[i..];
      Some((before, s[i..]))
  }

  /** Splits `s` around the last occurrence of `pat`: the text before it and
      the text after it, which does not contain `pat`. */
  function SplitAtLast(s: string, pat: string): (r: Option<(string, string)>)
    requires |pat| > 0
    ensures r.Some? ==> s == r.value.0 + pat + r.value.1 && Free(r.value.1, pat)
  {
    match LastIndexOf(s, pat)
    case None => None
    case Some(j) =>
      var after := s[j + |pat|..];
      assert Free(after, pat) by {
        forall t: nat ensures !OccursAt(after, pat, t) {
          var u := j + |pat| + t;
          if u + |pat| <= |s| {
            assert after[t..t + |pat|] == s[u..u + |pat|];
            assert !OccursAt(s, pat, u);
          }
        }
      }
      assert s == s[..j] + pat + after;
      Some((s[..j], after))
  }

  /** `SplitAtFirst` finds the boundary of a join whose right side begins with
      `pat` and whose left side does not contain it. */
  lemma SplitAtFirstJoin(a: string, b: string, pat: string)
    requires HeadUnique(pat) && pat <= b && Free(a, pat)
    ensures SplitAtFirst(a + b, pat) == Some((a, b))
  {
    IndexOfAtJoin(a, b, pat);
    assert (a + b)[..|a|] == a;
    assert (a + b)[|a|..] == b;
  }

  /** `SplitAtLast` finds the `pat` between a left side and a right side that
      does not contain `pat`. */
  lemma SplitAtLastJoin(a: string, b: string, pat: string)
    requires HeadUnique(pat) && Free(b, pat)
    ensures SplitAtLast(a + pat + b, pat) == Some((a, b))
  {
    var front := a + pat;
    assert front[|front| - |pat|..] == pat;
    LastIndexOfAtJoin(front, b, pat);
    assert (front + b)[..|a|] == a;
    assert (front + b)[|a| + |pat|..] == b;
  }

  // ---------------------------------------------------------------------------
  // Text a database parameter can carry

  /** Text without a NUL character (U+0000). The database driver refuses to
      send a string parameter holding one, and a `text` column cannot store
      one, so such a value makes the statement raise before it runs. */
  predicate NulFree(s: string) {
    forall i | 0 <= i < |s| :: s[i] != '\0'
  }

  /** A decoded JSON value passed as a parameter: `null` becomes NULL and a
      missing key its default, so only a present text value can hold NUL. */
  predicate NulFreeField(v: Maybe<string>) {
    v.Present? ==> NulFree(v.value)
  }

  // ---------------------------------------------------------------------------
  // Decimal numerals

  predicate IsDigit(c: char) {
    '0' <= c <= '9'
  }

  predicate AllDigits(s: string) {
    forall i | 0 <= i < |s| :: IsDigit(s[i])
  }

  function DigitValue(c: char): nat
    requires IsDigit(c)
  {
    (c as int) - ('0' as int)
  }

  function DigitChar(d: nat): (c: char)
    requires d < 10
    ensures IsDigit(c) && DigitValue(c) == d
  {
    (('0' as int) + d) as char
  }

  /** The number a string of decimal digits denotes (leading zeros allowed). */
  function DecimalValue(s: string): nat
    requires AllDigits(s)
  {
    if |s| == 0 then 0 else DecimalValue(s[..|s| - 1]) * 10 + DigitValue(s[|s| - 1])
  }

  /** How the database reads an id parameter as an integer key: a non-empty
      string of decimal digits, or nothing. */
  function ParseNat(s: string): (r: Option<nat>)
    ensures r.Some? <==> |s| > 0 && AllDigits(s)
  {
    if |s| > 0 && AllDigits(s) then Some(DecimalValue(s)) else None
  }

  /** The canonical decimal rendering of `n`, as JavaScript's template strings
      and JSON print an integer. */
  function NatToDecimal(n: nat): (r: string)
    ensures |r| > 0 && AllDigits(r)
    ensures NulFree(r)
    ensures |r| > 1 ==> r[0] != '0'
  {
    if n < 10 then [DigitChar(n)] else NatToDecimal(n / 10) + [DigitChar(n % 10)]
  }

  /** Printing a number and reading it back gives the same number. */
  lemma {:induction false} ParseNatToDecimal(n: nat)
    ensures ParseNat(NatToDecimal(n)) == Some(n)
  {
    var s := NatToDecimal(n);
    if n < 10 {
      assert s[..|s| - 1] == [];
      assert DecimalValue(s) == DecimalValue([]) * 10 + DigitValue(s[0]) == n;
    } else {
      ParseNatToDecimal(n / 10);
      assert s[..|s| - 1] == NatToDecimal(n / 10);
    }
  }
}
